=== FILE: README.md ===
# British monarchs statistics, modelled in Dafny

The program reads a list of monarch records. Each record has an id and an
optional name, country, house and reign period such as `"1066-1087"`,
`"1952-"` or `"1066"`. It prints four statistics:

1. how many monarchs there are;
2. the monarch with the longest reign;
3. the royal house whose monarchs together reigned longest, with that house's first and last monarch;
4. the most common first name.

After a title banner, a missing or empty list prints "Missing data" instead of
the statistics.

This project models that logic on values:

- `Kings` holds the record and its derived reign years (`RuledFrom`,
  `RuledTo`, `RuledPeriod`, `StillRuling`). Those years are read from the
  period text with `String.Split('-')` and `int.TryParse`. `Text` and
  `Numbers` model those two.
- `Linq` holds the LINQ operators the statistics are built from:
  - the stable sorts `OrderByDescending` and `OrderBy`;
  - `FirstOrDefault`;
  - `Where`;
  - `GroupBy`, whose groups come in order of first appearance.
- `Program` holds the four statistics and the top-level choice between
  "Missing data" and the report.
- `Scenarios` works a few small inputs through the general lemmas.

How ties are broken:

- The longest reign, the longest-reigning house and the most common first
  name are each the earliest maximum. Ties go to the record, the house or
  the first name that appears first, because `OrderByDescending` is a
  stable sort.
- A house's first monarch is its earliest-listed member with the smallest
  start year (`OrderBy` is stable too).
- A house's last monarch is its earliest-listed member with the largest end
  year.

Other behaviour the model keeps exactly as the code has it:

- A period with no dash is both its own first and last piece. If it parses,
  the reign starts and ends that year. If it does not, the reign runs from
  year 0 to the current year.
- Houses are grouped with exact, case-sensitive equality. "Commonwealth" is
  excluded in any letter case.
- A record without a name is counted under the first name "Unknown". It
  therefore shares a group with records whose first name is literally
  "Unknown".

Of a record "1900-1950" listed before a record "1800-1900", the code orders by
reign length and takes the first, so it picks the 100-year reign
(`Scenarios.LongestOfTwoReigns`).

## Model

| member | source | states |
|---|---|---|
| Text.Split | Monarchs/Program.cs:135-136 | `Split('-')` yields at least one piece, and no piece contains the separator |
| Text.EqualsOrdinalIgnoreCase | Monarchs/Program.cs:66 | `Equals(..., StringComparison.OrdinalIgnoreCase)`: equal length and equal characters once ASCII letters are upper-cased; `Program.RoyalHouseSpec` spells out the texts that equal "Commonwealth" this way |
| Text.JoinSplit | Monarchs/Program.cs:135-136 | joining the pieces of a split with the separator gives back the original text |
| Text.SplitJoin | Monarchs/Program.cs:135-136 | splitting a join of separator-free pieces gives back exactly those pieces |
| Text.FirstPiece | Monarchs/Program.cs:135 | the first piece is the prefix before the first separator (the whole text when there is none) |
| Text.LastPiece | Monarchs/Program.cs:136 | the last piece is the suffix after the last separator (the whole text when there is none) |
| Text.TrimWhiteSpec | Monarchs/Program.cs:135-136 | trimming keeps the slice of the text after its leading white space, and every character outside that slice is white; with `TrimWhite`'s own ensures the slice starts and ends with a non-white character, so exactly the surrounding white space is removed |
| Text.TrimPadded | Monarchs/Program.cs:135-136 | white space before and after a text that starts and ends with non-white characters is skipped entirely |
| Numbers.TryParseInt32 | Monarchs/Program.cs:135-136 | `int.TryParse` with `NumberStyles.Integer`; a successful parse always yields a value within the 32-bit signed range. `ParseForm`, `ParseShape` and `ParseRejectsForeign` state exactly which text parses and to what |
| Numbers.ParseForm | Monarchs/Program.cs:135-136 | white space, an optional `+` or `-`, at least one digit and white space parse to the signed value of the digits when it is within Int32, and fail otherwise |
| Numbers.ParseShape | Monarchs/Program.cs:135-136 | conversely, text that parses is white space, an optional sign, at least one digit and white space, and its value is the signed value of those digits |
| Numbers.ParseRejectsForeign | Monarchs/Program.cs:135-136 | text holding any character that is not white space, a digit or a sign fails to parse, so the year falls back to 0 or to the current year |
| Numbers.ParseWithoutMinus | Monarchs/Program.cs:135-136 | text without a minus sign never parses to a negative number |
| Numbers.ParseShowInt | Monarchs/Program.cs:135-136 | every Int32 written in decimal parses back to itself |
| Numbers.ParsePadded | Monarchs/Program.cs:135-136 | every Int32 written in decimal, with any white space before and after it, parses back to itself |
| Numbers.ParseOverflow | Monarchs/Program.cs:135-136 | a run of digits worth more than `Int32.MaxValue` fails to parse, rather than wrapping or saturating |
| Numbers.ParseNegativeOverflow | Monarchs/Program.cs:135-136 | a minus sign followed by digits worth more than 2147483648 fails to parse |
| Kings.YearOr | Monarchs/Program.cs:135-136 | the `int.TryParse(text, out year) ? year : fallback` choice: the parsed year when the text parses, the fallback otherwise, an absent text included; `Numbers.ParseForm`, `ParseShape` and `ParseRejectsForeign` state when the text parses and to what |
| Kings.StartText | Monarchs/Program.cs:135 | `Period?.Split('-').FirstOrDefault()`: absent for an absent period, otherwise the first piece; `PeriodPieces` states that it is the text before the first dash |
| Kings.EndText | Monarchs/Program.cs:136 | `Period?.Split('-').LastOrDefault()`: absent for an absent period, otherwise the last piece; `PeriodPieces` states that it is the text after the last dash |
| Kings.RuledFrom | Monarchs/Program.cs:135 | the first year: the text before the first dash of the period, parsed, or 0; always between 0 and `Int32.MaxValue`. `PeriodPieces`, `AbsentPeriod`, `ClosedPeriod`, `OpenPeriod` and `PeriodWithoutDash` state its value per period shape |
| Kings.RuledTo | Monarchs/Program.cs:136 | the last year: the text after the last dash of the period, parsed, or the current year; either between 0 and `Int32.MaxValue` or the current year. The same lemmas state its value per period shape |
| Kings.RuledPeriod | Monarchs/Program.cs:137 | the reign length, last year minus first year; `RuledPeriodFitsInt32` states that it cannot overflow, and `ClosedPeriod`, `OpenPeriod`, `AbsentPeriod` and `PeriodWithoutDash` give its value |
| Kings.StillRuling | Monarchs/Program.cs:138 | whether the last year is the current year; `AbsentPeriod`, `OpenPeriod` and `ClosedPeriod` state when it holds |
| Kings.PeriodPieces | Monarchs/Program.cs:135-136 | the start text is the period's prefix before the first dash, and the end text its suffix after the last dash |
| Kings.YearOfDashFreeText | Monarchs/Program.cs:135-136 | a year read from text without a dash is the fallback, or else a non-negative Int32 |
| Kings.RuledPeriodFitsInt32 | Monarchs/Program.cs:135-137 | for a current year in the Int32 range, both years are non-negative Int32 values, so `RuledTo - RuledFrom` cannot overflow |
| Kings.AbsentPeriod | Monarchs/Program.cs:135-138 | with no period, the reign runs from year 0 to the current year and is still going on |
| Kings.ClosedPeriod | Monarchs/Program.cs:135-138 | for `"from-to"`, the reign runs from `from` to `to`, lasts `to - from` years, and is ongoing exactly when `to` is the current year |
| Kings.OpenPeriod | Monarchs/Program.cs:135-138 | for `"from-"`, the reign runs from `from` to the current year and is still going on |
| Kings.PeriodWithoutDash | Monarchs/Program.cs:135-137 | a dash-free period that parses gives equal start and end years and a reign of 0; one that does not parse gives year 0 to the current year |
| Linq.FirstOrDefault | Monarchs/Program.cs:56 | (also at lines 72, 73, 80 and 105) absent exactly for an empty sequence, otherwise its first element; `FirstOfOrderByDescending`, `FirstOfOrderByDescendingAt` and `FirstOfOrderBy` state what it picks after each sort |
| Linq.OrderByDescending | Monarchs/Program.cs:56 | the result is a permutation of the input (same multiset) |
| Linq.OrderByDescendingSorted | Monarchs/Program.cs:56 | keys never increase along the result |
| Linq.ArgMaxFirst | Monarchs/Program.cs:56 | the returned position holds the largest key, and no earlier position holds it |
| Linq.OrderByDescendingHead | Monarchs/Program.cs:56 | the head of the stable descending sort is the element at the earliest maximum |
| Linq.FirstOfOrderByDescending | Monarchs/Program.cs:56 | `OrderByDescending(key).FirstOrDefault()` is absent exactly for an empty input, otherwise it is the element at the earliest maximum |
| Linq.FirstOfOrderByDescendingAt | Monarchs/Program.cs:80 | an element returned by `OrderByDescending(key).FirstOrDefault()` sits at the earliest maximum |
| Linq.OrderBy | Monarchs/Program.cs:72 | the result is a permutation of the input; `OrderBySorted` states that keys never decrease along it, and `FirstOfOrderBy` that its head is the earliest minimum |
| Linq.OrderBySorted | Monarchs/Program.cs:72 | keys never decrease along the result of `OrderBy` |
| Linq.FirstOfOrderBy | Monarchs/Program.cs:72 | `OrderBy(key).FirstOrDefault()` is absent exactly for an empty input, otherwise it is the element at the earliest minimum |
| Linq.Filter | Monarchs/Program.cs:66 | `Where` keeps every element satisfying the predicate and nothing else |
| Linq.FilterKeepsOrder | Monarchs/Program.cs:66 | `Where` keeps the input order |
| Linq.FirstIndex | Monarchs/Program.cs:65 | the position of the first element with a key, or the length when no element has it |
| Linq.KeysSpec | Monarchs/Program.cs:65 | the group keys are exactly the keys that occur, in order of first appearance |
| Linq.KeysDistinct | Monarchs/Program.cs:65 | no key starts two groups |
| Linq.MembersSpec | Monarchs/Program.cs:65 | a group holds each element with its key as often as the input does, and nothing else |
| Linq.MembersInOrder | Monarchs/Program.cs:65 | a group lists its members in input order: they sit at strictly increasing positions of the input, and those positions are exactly the ones whose element has the key |
| Linq.MembersNonEmpty | Monarchs/Program.cs:65 | the group of a key that occurs is not empty |
| Linq.GroupBy | Monarchs/Program.cs:65 | (also at line 102) one group per distinct key, each pairing the key with its members; `KeysSpec`, `KeysDistinct`, `MembersSpec`, `MembersInOrder`, `MembersNonEmpty` and `GroupSizesSum` state which keys, in which order, and which members |
| Linq.GroupSizesSum | Monarchs/Program.cs:102-103 | the group sizes add up to the length of the input |
| Program.NumberOfMonarchsMessage | Monarchs/Program.cs:47-50 | "Only one monarch found" exactly for one monarch, otherwise a total carrying the count |
| Program.LongestRulingMonarch | Monarchs/Program.cs:56 | absent only for an empty list; otherwise a listed monarch with the longest reign, and the earliest listed such monarch |
| Program.IsRoyalHouse | Monarchs/Program.cs:66 | the `Where` condition: a house is present and not "Commonwealth" compared with `OrdinalIgnoreCase`; `RoyalHouseSpec` spells out which texts it rejects |
| Program.RoyalHouseSpec | Monarchs/Program.cs:66 | a house is kept exactly when it is present and is not twelve characters that are, letter by letter, the lower- or upper-case letter of "commonwealth" |
| Program.Summarize | Monarchs/Program.cs:67-75 | the record built for one house group; its properties are stated by `SummarizeSpec` |
| Program.SummarizeSpec | Monarchs/Program.cs:67-75 | a house summary carries the house, its members and their summed reign. Its first and last monarchs are absent only for an empty group. The first is the earliest listed member with the smallest start year, and the last is the earliest listed member with the largest end year |
| Program.TotalRuledPeriod | Monarchs/Program.cs:71 | `Sum(d => d.RuledPeriod)` over a group, in unbounded integers; `HouseTotalIsSumOverHouse` states that for a house group it is the sum over exactly the records of that house |
| Program.HouseTotalIsSumOverHouse | Monarchs/Program.cs:65-71 | a house's total reign is the sum over exactly the records whose house equals it, compared case-sensitively |
| Program.Houses | Monarchs/Program.cs:64-75 | the grouped, filtered and summarised houses; `HousesSpec`, `HouseIndex` and `HouseSummaryIsRoyal` state which houses they are, in which order, and what each holds |
| Program.LongestRulingHouse | Monarchs/Program.cs:80 | absent exactly when there is no house summary; `LongestRulingHouseAbsent`, `LongestRulingHouseIsRoyal` and `LongestRulingHouseIsMaximal` state which house is chosen |
| Program.HousesSpec | Monarchs/Program.cs:64-75 | the house summaries are the royal houses that occur, in order of first appearance, each summarising exactly its own records |
| Program.HouseIndex | Monarchs/Program.cs:64-75 | every royal house that occurs has a summary |
| Program.HouseSummaryIsRoyal | Monarchs/Program.cs:64-75 | every house summary is that of a royal house of the list, with the properties of the first and last monarch above |
| Program.LongestRulingHouseAbsent | Monarchs/Program.cs:80-85 | "No data available." is printed exactly when no record has a royal house |
| Program.LongestRulingHouseIsRoyal | Monarchs/Program.cs:80 | the chosen house is a royal house of the list. Its summary covers exactly its records, and its period is their summed reign. Its first and last monarchs are present and chosen as above |
| Program.LongestRulingHouseIsMaximal | Monarchs/Program.cs:80 | no royal house reigned longer in total than the chosen one. A royal house met before the chosen one's first record reigned strictly shorter, so ties go to the house that appears first |
| Program.SoleRoyalHouseChosen | Monarchs/Program.cs:64-80 | when all royal-house records share one house, that house is chosen whatever the reigns |
| Program.FirstNameKey | Monarchs/Program.cs:99 | the first-name key of a record, which never contains a space; `FirstNameKeySpec` and `FirstNameOfWords` state its value |
| Program.FirstNameKeySpec | Monarchs/Program.cs:99 | the first-name key is "Unknown" for an absent name. Otherwise it is the text before the first space: the whole name when there is no space, and "" when the name starts with one |
| Program.FirstNameOfWords | Monarchs/Program.cs:99 | a name of the form word, space, rest has that word as its first name |
| Program.NameCounts | Monarchs/Program.cs:101-103 | the name and count of each first-name group; `NameCountsSpec` and `NameCountsSum` state its contents |
| Program.MostCommonFirstName | Monarchs/Program.cs:105 | the first name of largest count; `MostCommonFirstNameIsCounted`, `MostCommonFirstNameIsMaximal` and `StrictlyMostCommonChosen` state which one |
| Program.GroupSizeIsCarrying | Monarchs/Program.cs:102-103 | a first-name group's size equals the number of records carrying that name, counted directly over the list |
| Program.NameCountsSpec | Monarchs/Program.cs:101-103 | the name counts list the first name of every record, each name occurring in the list, strictly in order of first appearance, each with the number of records carrying it, counted directly over the list |
| Program.NameCountsSum | Monarchs/Program.cs:101-103 | the counts add up to the number of records |
| Program.MostCommonFirstNameIsCounted | Monarchs/Program.cs:105-110 | absent exactly for an empty list; otherwise a first name that occurs, with its count equal to the size of its group and to the number of records carrying it, counted directly over the list |
| Program.MostCommonFirstNameIsMaximal | Monarchs/Program.cs:105 | no first name is more common than the chosen one. Names met before the chosen one's first record are strictly less common, so ties go to the name that appears first |
| Program.StrictlyMostCommonChosen | Monarchs/Program.cs:101-105 | a first name carried by more records than any other is chosen, with its count |
| Program.Run | Monarchs/Program.cs:11-30 | "Missing data" exactly for an absent or empty list; otherwise the count message for the list length, and the results of the longest-reign, longest-ruling-house and most-common-name statistics on the list, with the monarch and the name always present |
| Scenarios.StillReigningSince1950 | Monarchs/Program.cs:136-138 | `"1950-"` starts in 1950, ends in the current year and is still reigning |
| Scenarios.FirstOfTwo | Monarchs/Program.cs:56 | of two elements, the stable descending sort puts the second first exactly when its key is strictly larger |
| Scenarios.LongestOfTwoReigns | Monarchs/Program.cs:56 | of "1900-1950" listed before "1800-1900", the 100-year reign is chosen |
| Scenarios.CommonwealthNeverChosen | Monarchs/Program.cs:66-80 | with houses "A" and "COMMONWEALTH", "A" is chosen whatever the reigns |
| Scenarios.TwoOfThree | Monarchs/Program.cs:99-105 | of three records where only the first two share a first name, that name is chosen with count 2 |
| Scenarios.JohnIsMostCommon | Monarchs/Program.cs:99-105 | of "John Smith", "John Doe" and "Jane Doe", "John" is chosen with count 2 |

## Left out

- Fetching the list over HTTP and deserialising the JSON (`GetMonarchsListAsync`, Monarchs/Program.cs:36-45) is network I/O and a foreign library. `Program.Run` takes the result as an `Option<seq<King>>`: `None` for a null result. A JSON array with a `null` element cannot be expressed as a `seq<King>`. For it the code throws a `NullReferenceException` at `x.RuledPeriod` (Monarchs/Program.cs:56); the model does not capture that.
- Console output is not modelled: the title banner, the exact interpolated text of each line, `Description`, and `Console.ReadKey`. The model returns which message or value each statistic produces.
- `DateTime.Today.Year` is a parameter, `currentYear`. The code reads the clock again on every access to `RuledTo` (Monarchs/Program.cs:136) and `StillRulling` (Monarchs/Program.cs:138). The model fixes one year for the whole run, so a run that spans midnight on New Year's Eve is not modelled.
- Numbers.TryParseInt32: covers `NumberStyles.Integer` with the invariant signs `+` and `-`. A culture's other sign strings and trailing NUL characters, which .NET also accepts, are left out.
- Text.EqualsOrdinalIgnoreCase: upper-cases ASCII letters only. Non-ASCII letters whose upper case is an ASCII letter are not mapped.
- Program.TotalRuledPeriod: sums in unbounded integers. The `OverflowException` that `Enumerable.Sum` throws when an Int32 total overflows is left out.
- `Id` and `Country` are carried in `King` but are never read by the statistics.
- LINQ's `OrderBy`/`OrderByDescending` is modelled by its result (a stable sort, as insertion sort), not by its internal algorithm or its deferred evaluation.

=== FILE: kings.dfy ===
/**
 * The monarch record and the reign years derived from its period text,
 * such as "1066-1087" (closed), "1952-" (still reigning) or "1066".
 * The current calendar year is a parameter.
 */
module Kings {
  import opened Wrappers
  import opened Text
  import opened Numbers

  /** One record of the dataset; every text field may be absent. */
  datatype King = King(
    id: int,
    name: Option<string>,
    country: Option<string>,
    house: Option<string>,
    period: Option<string>)

  /** `int.TryParse(text, out year) ? year : fallback`; an absent text does not parse. */
  function YearOr(text: Option<string>, fallback: int): int
  {
    if text.None? then fallback
    else match TryParseInt32(text.value)
      case Some(year) => year
      case None => fallback
  }

  /** The text before the first dash of the period, when there is a period. */
  function StartText(k: King): Option<string>
  {
    if k.period.None? then None else Some(Split(k.period.value, '-')[0])
  }

  /** The text after the last dash of the period, when there is a period. */
  function EndText(k: King): Option<string>
  {
    if k.period.None? then None
    else
      var pieces := Split(k.period.value, '-');
      Some(pieces[|pieces| - 1])
  }

  /**
   * The first year of the reign: the start of the period, or 0. It is never
   * negative, since the text before a dash holds no minus sign.
   */
  function RuledFrom(k: King): (r: int)
    ensures 0 <= r <= MaxInt32
  {
    YearOfDashFreeText(StartText(k), 0);
    YearOr(StartText(k), 0)
  }

  /** The last year of the reign: the end of the period, or the current year. */
  function RuledTo(k: King, currentYear: int): (r: int)
    ensures 0 <= r <= MaxInt32 || r == currentYear
  {
    YearOfDashFreeText(EndText(k), currentYear);
    YearOr(EndText(k), currentYear)
  }

  /**
   * RuledFrom reads the text before the first dash of the period and
   * RuledTo the text after the last one.
   */
  lemma PeriodPieces(k: King)
    requires k.period.Some?
    ensures var p, a, b := k.period.value, StartText(k).value, EndText(k).value;
      && |a| <= |p| && a == p[..|a|] && '-' !in a && (|a| == |p| || p[|a|] == '-')
      && |b| <= |p| && b == p[|p| - |b|..] && '-' !in b && (|b| == |p| || p[|p| - |b| - 1] == '-')
  {
    FirstPiece(k.period.value, '-');
    LastPiece(k.period.value, '-');
  }

  function RuledPeriod(k: King, currentYear: int): int
  {
    RuledTo(k, currentYear) - RuledFrom(k)
  }

  predicate StillRuling(k: King, currentYear: int)
  {
    RuledTo(k, currentYear) == currentYear
  }

  lemma YearOfDashFreeText(text: Option<string>, fallback: int)
    requires text.Some? ==> '-' !in text.value
    ensures YearOr(text, fallback) >= 0 || YearOr(text, fallback) == fallback
    ensures InInt32(YearOr(text, fallback)) || YearOr(text, fallback) == fallback
  {
    if text.Some? {
      ParseWithoutMinus(text.value);
    }
  }

  /**
   * Neither year is ever negative (a piece of the period holds no dash,
   * hence no minus sign), so for any current year in the Int32 range the
   * 32-bit subtraction computing the reign length never wraps around.
   */
  lemma RuledPeriodFitsInt32(k: King, currentYear: int)
    requires 0 <= currentYear <= MaxInt32
    ensures 0 <= RuledFrom(k) <= MaxInt32
    ensures 0 <= RuledTo(k, currentYear) <= MaxInt32
    ensures InInt32(RuledPeriod(k, currentYear))
  {
    YearOfDashFreeText(StartText(k), 0);
    YearOfDashFreeText(EndText(k), currentYear);
  }

  /** A record without a period started in year 0 and is still reigning. */
  lemma AbsentPeriod(k: King, currentYear: int)
    requires k.period.None?
    ensures RuledFrom(k) == 0 && RuledTo(k, currentYear) == currentYear
    ensures RuledPeriod(k, currentYear) == currentYear && StillRuling(k, currentYear)
  {
  }

  lemma DigitsHaveNoDash(d: string)
    requires AllDigits(d)
    ensures '-' !in d
  {
  }

  /** The rendering of an Int32 year reads back as that year, whatever the fallback. */
  lemma YearOfShown(n: nat, fallback: int)
    requires n <= MaxInt32
    ensures YearOr(Some(ShowNat(n)), fallback) == n
  {
    ParseShowInt(n);
  }

  /** "from-to": the reign runs from `from` to `to`. */
  lemma ClosedPeriod(k: King, from: nat, to: nat, currentYear: int)
    requires from <= MaxInt32 && to <= MaxInt32
    requires k.period == Some(ShowNat(from) + "-" + ShowNat(to))
    ensures RuledFrom(k) == from && RuledTo(k, currentYear) == to
    ensures RuledPeriod(k, currentYear) == to - from
    ensures StillRuling(k, currentYear) <==> to == currentYear
  {
    var a, b := ShowNat(from), ShowNat(to);
    DigitsHaveNoDash(a);
    DigitsHaveNoDash(b);
    assert Join([a, b], '-') == a + "-" + b;
    SplitJoin([a, b], '-');
    assert StartText(k) == Some(a) && EndText(k) == Some(b);
    YearOfShown(from, 0);
    YearOfShown(to, currentYear);
  }

  /** "from-": the reign started in `from` and lasts to the current year. */
  lemma OpenPeriod(k: King, from: nat, currentYear: int)
    requires from <= MaxInt32
    requires k.period == Some(ShowNat(from) + "-")
    ensures RuledFrom(k) == from && RuledTo(k, currentYear) == currentYear
    ensures RuledPeriod(k, currentYear) == currentYear - from
    ensures StillRuling(k, currentYear)
  {
    var a := ShowNat(from);
    DigitsHaveNoDash(a);
    assert Join([a, ""], '-') == a + "-";
    SplitJoin([a, ""], '-');
    assert StartText(k) == Some(a) && EndText(k) == Some("");
    YearOfShown(from, 0);
  }

  /**
   * A period without a dash is its own first and last piece: when it parses
   * the reign starts and ends that year and lasts 0 years; when it does not,
   * the reign runs from year 0 to the current year.
   */
  lemma PeriodWithoutDash(k: King, currentYear: int)
    requires k.period.Some? && '-' !in k.period.value
    ensures TryParseInt32(k.period.value).Some? ==>
      RuledFrom(k) == RuledTo(k, currentYear) == TryParseInt32(k.period.value).value
      && RuledPeriod(k, currentYear) == 0
    ensures TryParseInt32(k.period.value).None? ==>
      RuledFrom(k) == 0 && RuledTo(k, currentYear) == currentYear
  {
    var p := k.period.value;
    SplitWithoutSeparator(p, '-');
    assert StartText(k) == Some(p) && EndText(k) == Some(p);
  }
}

=== FILE: linq.dfy ===
/**
 * The LINQ operators the statistics are built from, on sequences:
 * `FirstOrDefault`, the stable sorts `OrderByDescending` and `OrderBy`,
 * `Where`, and `GroupBy` with groups in order of first appearance.
 */
module Linq {
  import opened Wrappers

  function FirstOrDefault<T>(s: seq<T>): (r: Option<T>)
    ensures r.None? <==> |s| == 0
    ensures r.Some? ==> r.value == s[0]
  {
    if |s| == 0 then None else Some(s[0])
  }

  // ---------------------------------------------------------------- sorting

  /** Inserts `x` in front of the first element whose key does not exceed its own. */
  function InsertDescending<T>(x: T, t: seq<T>, key: T -> int): (r: seq<T>)
    ensures multiset(r) == multiset(t) + multiset{x}
  {
    if |t| == 0 || key(t[0]) <= key(x) then [x] + t
    else
      assert t == [t[0]] + t[1..];
      [t[0]] + InsertDescending(x, t[1..], key)
  }

  /**
   * `OrderByDescending(key)`: a stable sort, largest key first. Each element
   * is inserted ahead of the later elements with an equal key, so equal keys
   * keep their input order.
   */
  function OrderByDescending<T>(s: seq<T>, key: T -> int): (r: seq<T>)
    ensures multiset(r) == multiset(s)
  {
    if |s| == 0 then []
    else
      assert s == [s[0]] + s[1..];
      InsertDescending(s[0], OrderByDescending(s[1..], key), key)
  }

  ghost predicate SortedDescending<T>(s: seq<T>, key: T -> int)
  {
    forall i, j :: 0 <= i < j < |s| ==> key(s[i]) >= key(s[j])
  }

  lemma {:induction false} InsertKeepsSorted<T>(x: T, t: seq<T>, key: T -> int)
    requires SortedDescending(t, key)
    ensures SortedDescending(InsertDescending(x, t, key), key)
  {
    if |t| > 0 && key(t[0]) > key(x) {
      var rest := InsertDescending(x, t[1..], key);
      InsertKeepsSorted(x, t[1..], key);
      forall j | 0 <= j < |rest|
        ensures key(t[0]) >= key(rest[j])
      {
        assert rest[j] in multiset(rest);
        if rest[j] != x {
          assert rest[j] in t[1..];
          var k :| 0 <= k < |t[1..]| && t[1..][k] == rest[j];
          assert t[k + 1] == rest[j];
        }
      }
      var r := InsertDescending(x, t, key);
      assert r == [t[0]] + rest;
      forall i, j | 0 <= i < j < |r| ensures key(r[i]) >= key(r[j]) {
        if i > 0 {
          assert r[i] == rest[i - 1] && r[j] == rest[j - 1];
        } else {
          assert r[j] == rest[j - 1];
        }
      }
    }
  }

  /** OrderByDescending sorts: keys never increase along the result. */
  lemma {:induction false} OrderByDescendingSorted<T>(s: seq<T>, key: T -> int)
    ensures SortedDescending(OrderByDescending(s, key), key)
  {
    if |s| > 0 {
      OrderByDescendingSorted(s[1..], key);
      InsertKeepsSorted(s[0], OrderByDescending(s[1..], key), key);
    }
  }

  /** Position `i` holds the largest key, and no earlier position holds it. */
  predicate IsFirstMax<T>(s: seq<T>, key: T -> int, i: int)
  {
    0 <= i < |s|
    && (forall j :: 0 <= j < |s| ==> key(s[j]) <= key(s[i]))
    && (forall j :: 0 <= j < i ==> key(s[j]) < key(s[i]))
  }

  /** Position `i` holds the smallest key, and no earlier position holds it. */
  predicate IsFirstMin<T>(s: seq<T>, key: T -> int, i: int)
  {
    0 <= i < |s|
    && (forall j :: 0 <= j < |s| ==> key(s[i]) <= key(s[j]))
    && (forall j :: 0 <= j < i ==> key(s[i]) < key(s[j]))
  }

  /** The position of the earliest largest key. */
  function ArgMaxFirst<T>(s: seq<T>, key: T -> int): (i: nat)
    requires |s| > 0
    ensures IsFirstMax(s, key, i)
  {
    if |s| == 1 then 0
    else
      var j := 1 + ArgMaxFirst(s[1..], key);
      assert forall m :: 1 <= m < |s| ==> s[m] == s[1..][m - 1];
      if key(s[j]) <= key(s[0]) then 0 else j
  }

  /**
   * The first element of the stable descending sort is the earliest element
   * with the largest key: this is `OrderByDescending(key).FirstOrDefault()`.
   */
  lemma {:induction false} OrderByDescendingHead<T>(s: seq<T>, key: T -> int)
    requires |s| > 0
    ensures OrderByDescending(s, key)[0] == s[ArgMaxFirst(s, key)]
  {
    if |s| > 1 {
      OrderByDescendingHead(s[1..], key);
      assert |OrderByDescending(s[1..], key)| == |s| - 1;
    }
  }

  /** `OrderByDescending(key).FirstOrDefault()`: None on an empty input, else the earliest maximum. */
  lemma FirstOfOrderByDescending<T>(s: seq<T>, key: T -> int)
    ensures FirstOrDefault(OrderByDescending(s, key)).None? <==> |s| == 0
    ensures |s| > 0 ==>
      exists i :: IsFirstMax(s, key, i) && FirstOrDefault(OrderByDescending(s, key)) == Some(s[i])
  {
    if |s| > 0 {
      OrderByDescendingHead(s, key);
      var i := ArgMaxFirst(s, key);
      assert IsFirstMax(s, key, i);
    }
  }

  /** An element returned by `OrderByDescending(key).FirstOrDefault()` sits at an earliest maximum. */
  lemma FirstOfOrderByDescendingAt<T>(s: seq<T>, key: T -> int, x: T) returns (i: int)
    requires FirstOrDefault(OrderByDescending(s, key)) == Some(x)
    ensures IsFirstMax(s, key, i) && s[i] == x
  {
    FirstOfOrderByDescending(s, key);
    i :| IsFirstMax(s, key, i) && FirstOrDefault(OrderByDescending(s, key)) == Some(s[i]);
  }

  function Negated<T>(key: T -> int): T -> int
  {
    x => -key(x)
  }

  /**
   * `OrderBy(key)`: a stable sort, smallest key first. A stable ascending sort
   * by `key` places the elements exactly as a stable descending sort by `-key`.
   */
  function OrderBy<T>(s: seq<T>, key: T -> int): (r: seq<T>)
    ensures multiset(r) == multiset(s)
  {
    OrderByDescending(s, Negated(key))
  }

  /** `OrderBy(key).FirstOrDefault()`: None on an empty input, else the earliest minimum. */
  lemma FirstOfOrderBy<T>(s: seq<T>, key: T -> int)
    ensures FirstOrDefault(OrderBy(s, key)).None? <==> |s| == 0
    ensures |s| > 0 ==>
      exists i :: IsFirstMin(s, key, i) && FirstOrDefault(OrderBy(s, key)) == Some(s[i])
  {
    if |s| > 0 {
      OrderByDescendingHead(s, Negated(key));
      var i := ArgMaxFirst(s, Negated(key));
      assert IsFirstMax(s, Negated(key), i);
      assert IsFirstMin(s, key, i);
    }
  }

  /** OrderBy sorts: keys never decrease along the result. */
  lemma OrderBySorted<T>(s: seq<T>, key: T -> int)
    ensures forall i, j :: 0 <= i < j < |OrderBy(s, key)| ==> key(OrderBy(s, key)[i]) <= key(OrderBy(s, key)[j])
  {
    OrderByDescendingSorted(s, Negated(key));
  }

  // ---------------------------------------------------------------- Where

  /** `Where(p)`: the elements satisfying `p`, in input order. */
  function Filter<T>(s: seq<T>, p: T -> bool): (r: seq<T>)
    ensures forall i :: 0 <= i < |r| ==> r[i] in s && p(r[i])
    ensures forall i :: 0 <= i < |s| && p(s[i]) ==> s[i] in r
  {
    if |s| == 0 then []
    else
      var rest := Filter(s[1..], p);
      assert forall i :: 1 <= i < |s| ==> s[i] == s[1..][i - 1];
      if p(s[0]) then [s[0]] + rest else rest
  }

  ghost predicate RankIncreasing<T>(s: seq<T>, rank: T -> int)
  {
    forall i, j :: 0 <= i < j < |s| ==> rank(s[i]) < rank(s[j])
  }

  /** Filtering keeps the elements in order: a rank increasing along `s` increases along the result. */
  lemma {:induction false} FilterKeepsOrder<T>(s: seq<T>, p: T -> bool, rank: T -> int)
    requires RankIncreasing(s, rank)
    ensures RankIncreasing(Filter(s, p), rank)
  {
    if |s| > 0 {
      var rest := Filter(s[1..], p);
      assert RankIncreasing(s[1..], rank);
      FilterKeepsOrder(s[1..], p, rank);
      if p(s[0]) {
        forall j | 0 <= j < |rest| ensures rank(s[0]) < rank(rest[j]) {
          assert rest[j] in s[1..];
          var k :| 0 <= k < |s[1..]| && s[1..][k] == rest[j];
          assert s[k + 1] == rest[j];
        }
        var r := [s[0]] + rest;
        forall i, j | 0 <= i < j < |r| ensures rank(r[i]) < rank(r[j]) {
          if i > 0 {
            assert r[i] == rest[i - 1];
          }
          assert r[j] == rest[j - 1];
        }
        assert r == Filter(s, p);
      }
    }
  }

  // ---------------------------------------------------------------- GroupBy

  /** The position of the first element whose key is `k`, or `|s|` when there is none. */
  function FirstIndex<T, K(==)>(s: seq<T>, key: T -> K, k: K): (r: nat)
    ensures r <= |s|
    ensures r < |s| ==> key(s[r]) == k
    ensures forall j :: 0 <= j < r ==> key(s[j]) != k
  {
    if |s| == 0 then 0
    else
      var f := FirstIndex(s[..|s| - 1], key, k);
      assert forall j :: 0 <= j < |s| - 1 ==> s[..|s| - 1][j] == s[j];
      if f < |s| - 1 then f
      else if key(s[|s| - 1]) == k then |s| - 1
      else |s|
  }

  /** The distinct keys of `s`, in order of first appearance. */
  function Keys<T, K(==)>(s: seq<T>, key: T -> K): (ks: seq<K>)
  {
    if |s| == 0 then []
    else
      var r := Keys(s[..|s| - 1], key);
      var k := key(s[|s| - 1]);
      if k in r then r else r + [k]
  }

  /**
   * Keys holds the key of every element, each key only once, and lists them
   * in order of their first appearance in `s`.
   */
  lemma KeysSpec<T, K>(s: seq<T>, key: T -> K)
    ensures var ks := Keys(s, key);
      && (forall i :: 0 <= i < |s| ==> key(s[i]) in ks)
      && (forall k :: k in ks ==> FirstIndex(s, key, k) < |s|)
      && (forall i, j :: 0 <= i < j < |ks| ==> FirstIndex(s, key, ks[i]) < FirstIndex(s, key, ks[j]))
  {
    KeysCover(s, key);
    KeysFound(s, key);
    KeysOrdered(s, key);
  }

  lemma {:induction false} KeysCover<T, K>(s: seq<T>, key: T -> K)
    ensures forall i :: 0 <= i < |s| ==> key(s[i]) in Keys(s, key)
  {
    if |s| > 0 {
      var n := |s| - 1;
      KeysCover(s[..n], key);
      forall i | 0 <= i < n ensures key(s[i]) in Keys(s, key) {
        assert s[..n][i] == s[i];
      }
    }
  }

  lemma {:induction false} KeysFound<T, K>(s: seq<T>, key: T -> K)
    ensures forall k :: k in Keys(s, key) ==> FirstIndex(s, key, k) < |s|
  {
    if |s| > 0 {
      var n := |s| - 1;
      KeysFound(s[..n], key);
      forall k | k in Keys(s[..n], key) ensures FirstIndex(s, key, k) < |s| {
        FirstIndexOfPrefix(s, key, k);
      }
    }
  }

  lemma {:induction false} KeysOrdered<T, K>(s: seq<T>, key: T -> K)
    ensures forall i, j :: 0 <= i < j < |Keys(s, key)| ==>
      FirstIndex(s, key, Keys(s, key)[i]) < FirstIndex(s, key, Keys(s, key)[j])
  {
    if |s| > 0 {
      var n := |s| - 1;
      var pre := s[..n];
      var r := Keys(pre, key);
      var x := key(s[n]);
      var ks := Keys(s, key);
      KeysOrdered(pre, key);
      KeysFound(pre, key);
      KeysCover(pre, key);
      forall i | 0 <= i < |r| ensures FirstIndex(s, key, r[i]) == FirstIndex(pre, key, r[i]) < n {
        assert r[i] in r;
        FirstIndexOfPrefix(s, key, r[i]);
      }
      forall i, j | 0 <= i < j < |r| ensures FirstIndex(s, key, r[i]) < FirstIndex(s, key, r[j]) {
        assert FirstIndex(pre, key, r[i]) < FirstIndex(pre, key, r[j]);
      }
      if x !in r {
        assert FirstIndex(pre, key, x) == n;
        assert ks == r + [x];
        forall i | 0 <= i < |r| ensures FirstIndex(s, key, r[i]) < FirstIndex(s, key, x) {
        }
      }
    }
  }

  /** A key found before the last element is found at the same place without it. */
  lemma FirstIndexOfPrefix<T, K>(s: seq<T>, key: T -> K, k: K)
    requires |s| > 0 && FirstIndex(s[..|s| - 1], key, k) < |s| - 1
    ensures FirstIndex(s, key, k) == FirstIndex(s[..|s| - 1], key, k)
  {
  }

  /** Keys lists no key twice. */
  lemma KeysDistinct<T, K>(s: seq<T>, key: T -> K)
    ensures var ks := Keys(s, key);
      forall i, j :: 0 <= i < j < |ks| ==> ks[i] != ks[j]
  {
    KeysSpec(s, key);
  }

  /** The elements whose key is `k`, in input order: the group of `k`. */
  function Members<T, K(==)>(s: seq<T>, key: T -> K, k: K): seq<T>
  {
    if |s| == 0 then []
    else
      var n := |s| - 1;
      Members(s[..n], key, k) + (if key(s[n]) == k then [s[n]] else [])
  }

  /** The group of `k` holds every element with key `k`, as often as `s` does, and nothing else. */
  lemma {:induction false} MembersSpec<T, K>(s: seq<T>, key: T -> K, k: K)
    ensures forall y :: multiset(Members(s, key, k))[y] == if key(y) == k then multiset(s)[y] else 0
  {
    if |s| > 0 {
      var n := |s| - 1;
      MembersSpec(s[..n], key, k);
      assert s == s[..n] + [s[n]];
    }
  }

  /**
   * A group keeps its members in input order: they are the elements at a
   * strictly increasing run of positions `idx`, and those positions are
   * exactly the ones whose element has the key.
   */
  lemma {:induction false} MembersInOrder<T, K>(s: seq<T>, key: T -> K, k: K) returns (idx: seq<nat>)
    ensures |idx| == |Members(s, key, k)|
    ensures forall m :: 0 <= m < |idx| ==> idx[m] < |s| && Members(s, key, k)[m] == s[idx[m]]
    ensures forall m, m' :: 0 <= m < m' < |idx| ==> idx[m] < idx[m']
    ensures forall p :: 0 <= p < |s| ==> (key(s[p]) == k <==> p in idx)
  {
    if |s| == 0 {
      idx := [];
    } else {
      var n := |s| - 1;
      var pre := s[..n];
      var before := MembersInOrder(pre, key, k);
      var mb := Members(pre, key, k);
      if key(s[n]) == k {
        idx := before + [n];
        assert Members(s, key, k) == mb + [s[n]];
        forall m | 0 <= m < |idx| ensures idx[m] < |s| && Members(s, key, k)[m] == s[idx[m]] {
          if m < |before| {
            assert idx[m] == before[m] && pre[before[m]] == s[before[m]];
          }
        }
        forall p | 0 <= p < |s| ensures key(s[p]) == k <==> p in idx {
          if p < n {
            assert pre[p] == s[p];
            assert p in idx <==> p in before;
          }
        }
      } else {
        idx := before;
        assert Members(s, key, k) == mb;
        forall m | 0 <= m < |idx| ensures Members(s, key, k)[m] == s[idx[m]] {
          assert pre[before[m]] == s[before[m]];
        }
        forall p | 0 <= p < n ensures key(s[p]) == k <==> p in idx {
          assert pre[p] == s[p];
        }
      }
    }
  }

  /** A key that occurs in `s` has a non-empty group. */
  lemma MembersNonEmpty<T, K>(s: seq<T>, key: T -> K, k: K)
    requires FirstIndex(s, key, k) < |s|
    ensures |Members(s, key, k)| > 0
  {
    var y := s[FirstIndex(s, key, k)];
    MembersSpec(s, key, k);
    assert y in multiset(s);
    assert y in multiset(Members(s, key, k));
  }

  datatype Group<T, K> = Group(key: K, members: seq<T>)

  /** `GroupBy(key)`: one group per distinct key, in order of first appearance. */
  function GroupBy<T, K(==)>(s: seq<T>, key: T -> K): (gs: seq<Group<T, K>>)
    ensures var ks := Keys(s, key);
      |gs| == |ks| && forall i :: 0 <= i < |gs| ==> gs[i] == Group(ks[i], Members(s, key, ks[i]))
  {
    var ks := Keys(s, key);
    seq(|ks|, i requires 0 <= i < |ks| => Group(ks[i], Members(s, key, ks[i])))
  }

  /** The total size of the groups of `ks`. */
  function GroupedCount<T, K(==)>(s: seq<T>, key: T -> K, ks: seq<K>): nat
  {
    if |ks| == 0 then 0
    else GroupedCount(s, key, ks[..|ks| - 1]) + |Members(s, key, ks[|ks| - 1])|
  }

  function Occurrences<K(==)>(ks: seq<K>, k: K): nat
  {
    if |ks| == 0 then 0
    else Occurrences(ks[..|ks| - 1], k) + (if ks[|ks| - 1] == k then 1 else 0)
  }

  lemma {:induction false} GroupedCountAppend<T, K>(s: seq<T>, x: T, key: T -> K, ks: seq<K>)
    ensures GroupedCount(s + [x], key, ks) == GroupedCount(s, key, ks) + Occurrences(ks, key(x))
  {
    if |ks| > 0 {
      GroupedCountAppend(s, x, key, ks[..|ks| - 1]);
      assert (s + [x])[..|s|] == s;
    }
  }

  lemma {:induction false} OccurrencesDistinct<K>(ks: seq<K>, k: K)
    requires forall i, j :: 0 <= i < j < |ks| ==> ks[i] != ks[j]
    ensures Occurrences(ks, k) == if k in ks then 1 else 0
  {
    if |ks| > 0 {
      var pre := ks[..|ks| - 1];
      OccurrencesDistinct(pre, k);
      assert forall x :: x in ks <==> x in pre || x == ks[|ks| - 1];
      if ks[|ks| - 1] == k {
        forall i | 0 <= i < |pre| ensures pre[i] != k {
          assert pre[i] == ks[i];
        }
      }
    }
  }

  lemma {:induction false} MembersOfAbsentKey<T, K>(s: seq<T>, key: T -> K, k: K)
    requires forall i :: 0 <= i < |s| ==> key(s[i]) != k
    ensures Members(s, key, k) == []
  {
    if |s| > 0 {
      MembersOfAbsentKey(s[..|s| - 1], key, k);
    }
  }

  /** The groups partition the input: their sizes add up to its length. */
  lemma {:induction false} GroupSizesSum<T, K>(s: seq<T>, key: T -> K)
    ensures GroupedCount(s, key, Keys(s, key)) == |s|
  {
    if |s| > 0 {
      var n := |s| - 1;
      var pre := s[..n];
      var x := s[n];
      assert s == pre + [x];
      var r := Keys(pre, key);
      GroupSizesSum(pre, key);
      GroupedCountAppend(pre, x, key, r);
      KeysDistinct(pre, key);
      OccurrencesDistinct(r, key(x));
      if key(x) !in r {
        NewKeyGroup(pre, x, key);
      }
    }
  }

  /** A key seen for the first time adds a group of one. */
  lemma NewKeyGroup<T, K>(pre: seq<T>, x: T, key: T -> K)
    requires key(x) !in Keys(pre, key)
    ensures var r := Keys(pre, key);
      GroupedCount(pre + [x], key, r + [key(x)]) == GroupedCount(pre + [x], key, r) + 1
  {
    var r := Keys(pre, key);
    var s := pre + [x];
    KeysSpec(pre, key);
    MembersOfAbsentKey(pre, key, key(x));
    assert s[..|pre|] == pre;
    assert (r + [key(x)])[..|r|] == r;
  }
}

=== FILE: numbers.dfy ===
/**
 * `int.TryParse(string, out int)` with the default `NumberStyles.Integer`:
 * optional white space, an optional sign, ASCII decimal digits, optional
 * white space, and a value that fits in a 32-bit signed integer.
 */
module Numbers {
  import opened Wrappers
  import opened Text

  const MinInt32: int := -0x8000_0000
  const MaxInt32: int := 0x7FFF_FFFF

  predicate InInt32(n: int)
  {
    MinInt32 <= n <= MaxInt32
  }

  predicate IsDigit(c: char)
  {
    '0' <= c <= '9'
  }

  predicate AllDigits(d: string)
  {
    forall i :: 0 <= i < |d| ==> IsDigit(d[i])
  }

  /** The value of a run of decimal digits, most significant first. */
  function DigitsValue(d: string): nat
    requires AllDigits(d)
  {
    if |d| == 0 then 0
    else 10 * DigitsValue(d[..|d| - 1]) + (d[|d| - 1] as int - '0' as int)
  }

  /**
   * Some(n) when `s` is, after skipping surrounding white space, an optional
   * `+` or `-` followed by at least one digit and denotes an Int32 `n`;
   * None otherwise, overflow included (where `int.TryParse` returns false).
   */
  function TryParseInt32(s: string): (r: Option<int>)
    ensures r.Some? ==> InInt32(r.value)
  {
    ParseSigned(TrimWhite(s))
  }

  /** An optional sign, then the digits. */
  function ParseSigned(t: string): (r: Option<int>)
    ensures r.Some? ==> InInt32(r.value)
  {
    if |t| > 0 && t[0] == '-' then ParseMagnitude(true, t[1..])
    else if |t| > 0 && t[0] == '+' then ParseMagnitude(false, t[1..])
    else ParseMagnitude(false, t)
  }

  /** At least one digit, and the value, negated when `negative`, within Int32. */
  function ParseMagnitude(negative: bool, digits: string): (r: Option<int>)
    ensures r.Some? ==> InInt32(r.value)
  {
    if |digits| == 0 || !AllDigits(digits) then None
    else
      var v: int := if negative then -(DigitsValue(digits) as int) else DigitsValue(digits);
      if InInt32(v) then Some(v) else None
  }

  /** A number that parses from text without a minus sign is not negative. */
  lemma ParseWithoutMinus(s: string)
    requires '-' !in s
    ensures TryParseInt32(s).Some? ==> TryParseInt32(s).value >= 0
  {
    var t := TrimWhite(s);
    TrimWhiteKeeps(s);
    if |t| > 0 {
      assert t[0] in t;
    }
  }

  function DigitChar(n: nat): char
    requires n < 10
  {
    ('0' as int + n) as char
  }

  /** The decimal rendering of a natural number, as `ToString()` writes it. */
  function ShowNat(n: nat): (d: string)
    ensures |d| > 0 && AllDigits(d)
  {
    if n < 10 then [DigitChar(n)] else ShowNat(n / 10) + [DigitChar(n % 10)]
  }

  /** The decimal rendering of an integer, with a leading `-` when negative. */
  function ShowInt(n: int): string
  {
    if n < 0 then "-" + ShowNat(-n) else ShowNat(n)
  }

  lemma {:induction false} DigitsValueShowNat(n: nat)
    ensures DigitsValue(ShowNat(n)) == n
  {
    if n >= 10 {
      DigitsValueShowNat(n / 10);
      var d := ShowNat(n);
      assert d[..|d| - 1] == ShowNat(n / 10);
    }
  }

  /** A run of digits parses as its value when that fits in an Int32. */
  lemma ParseDigits(d: string)
    requires |d| > 0 && AllDigits(d) && DigitsValue(d) <= MaxInt32
    ensures TryParseInt32(d) == Some(DigitsValue(d))
  {
    TrimWhiteUnchanged(d);
  }

  /** A minus sign followed by a run of digits parses as minus its value when that fits in an Int32. */
  lemma ParseNegatedDigits(d: string)
    requires |d| > 0 && AllDigits(d) && -(DigitsValue(d) as int) >= MinInt32
    ensures TryParseInt32("-" + d) == Some(-(DigitsValue(d) as int))
  {
    ParseMinusPrefix(d);
    NegatedMagnitude(d);
  }

  lemma NegatedMagnitude(d: string)
    requires |d| > 0 && AllDigits(d) && -(DigitsValue(d) as int) >= MinInt32
    ensures ParseMagnitude(true, d) == Some(-(DigitsValue(d) as int))
  {
  }

  lemma ParseMinusPrefix(d: string)
    requires |d| > 0 && AllDigits(d)
    ensures TryParseInt32("-" + d) == ParseMagnitude(true, d)
  {
    var s := "-" + d;
    assert TryParseInt32(s) == ParseSigned(s) by {
      assert IsDigit(d[|d| - 1]) && s[|s| - 1] == d[|d| - 1];
      TrimWhiteUnchanged(s);
    }
    assert s[0] == '-' && s[1..] == d;
  }

  /** Parsing inverts rendering on the whole Int32 range. */
  lemma ParseShowInt(n: int)
    requires InInt32(n)
    ensures TryParseInt32(ShowInt(n)) == Some(n)
  {
    if n < 0 {
      var d := ShowNat(-n);
      assert ShowInt(n) == "-" + d;
      DigitsValueShowNat(-n);
      ParseNegatedDigits(d);
    } else {
      var d := ShowNat(n);
      assert ShowInt(n) == d;
      DigitsValueShowNat(n);
      ParseDigits(d);
    }
  }

  /** White space around a rendered Int32 is skipped: it still parses back to itself. */
  lemma ParsePadded(w1: string, n: int, w2: string)
    requires forall i :: 0 <= i < |w1| ==> IsWhite(w1[i])
    requires forall i :: 0 <= i < |w2| ==> IsWhite(w2[i])
    requires InInt32(n)
    ensures TryParseInt32(w1 + ShowInt(n) + w2) == Some(n)
  {
    var x := ShowInt(n);
    var d := ShowNat(if n < 0 then -n else n);
    assert IsDigit(d[0]) && IsDigit(d[|d| - 1]);
    assert x[0] == '-' || x[0] == d[0];
    assert x[|x| - 1] == d[|d| - 1];
    TrimPadded(w1, x, w2);
    TrimWhiteUnchanged(x);
    ParseShowInt(n);
  }

  /** A run of digits whose value exceeds Int32.MaxValue does not parse: no wrap-around, no saturation. */
  lemma ParseOverflow(d: string)
    requires |d| > 0 && AllDigits(d) && DigitsValue(d) > MaxInt32
    ensures TryParseInt32(d) == None
  {
    assert IsDigit(d[0]) && IsDigit(d[|d| - 1]);
    TrimWhiteUnchanged(d);
  }

  /** A minus sign and a run of digits whose value exceeds -Int32.MinValue does not parse either. */
  lemma ParseNegativeOverflow(d: string)
    requires |d| > 0 && AllDigits(d) && DigitsValue(d) > -MinInt32
    ensures TryParseInt32("-" + d) == None
  {
    ParseMinusPrefix(d);
  }

  /** The signs `int.TryParse` accepts in front of the digits. */
  predicate IsSign(sg: string)
  {
    sg == "" || sg == "+" || sg == "-"
  }

  /** The value of a sign and a digit run, before the Int32 range is checked. */
  function SignedValue(sg: string, d: string): int
    requires AllDigits(d)
  {
    if sg == "-" then -(DigitsValue(d) as int) else DigitsValue(d)
  }

  /** An optional sign and at least one digit: the sign applied to the digits' value, when it fits in an Int32. */
  lemma SignedForm(sg: string, d: string)
    requires IsSign(sg) && |d| > 0 && AllDigits(d)
    ensures ParseSigned(sg + d) == if InInt32(SignedValue(sg, d)) then Some(SignedValue(sg, d)) else None
  {
    var x := sg + d;
    assert IsDigit(d[0]);
    if sg == "" {
      assert x == d;
    } else {
      assert x[0] == sg[0] && x[1..] == d;
    }
  }

  /**
   * White space, an optional sign, at least one digit and white space parse
   * to the signed value of the digits when it fits in an Int32, and fail
   * otherwise.
   */
  lemma ParseForm(w1: string, sg: string, d: string, w2: string)
    requires forall i :: 0 <= i < |w1| ==> IsWhite(w1[i])
    requires forall i :: 0 <= i < |w2| ==> IsWhite(w2[i])
    requires IsSign(sg) && |d| > 0 && AllDigits(d)
    ensures InInt32(SignedValue(sg, d)) ==> TryParseInt32(w1 + sg + d + w2) == Some(SignedValue(sg, d))
    ensures !InInt32(SignedValue(sg, d)) ==> TryParseInt32(w1 + sg + d + w2) == None
  {
    var x := sg + d;
    assert IsDigit(d[0]) && IsDigit(d[|d| - 1]);
    assert x[|x| - 1] == d[|d| - 1];
    assert x[0] == d[0] || x[0] == '+' || x[0] == '-';
    assert w1 + sg + d + w2 == w1 + x + w2;
    TrimPadded(w1, x, w2);
    SignedForm(sg, d);
  }

  /** Where the trimmed text sits in the original: after `lo` white characters, followed only by white ones. */
  lemma TrimmedAt(s: string) returns (lo: nat)
    ensures lo + |TrimWhite(s)| <= |s| && TrimWhite(s) == s[lo..lo + |TrimWhite(s)|]
    ensures forall i :: 0 <= i < lo ==> IsWhite(s[i])
    ensures forall i :: lo + |TrimWhite(s)| <= i < |s| ==> IsWhite(s[i])
  {
    TrimWhiteSpec(s);
    lo := |s| - |TrimStart(s)|;
  }

  /** A character other than a digit or a sign makes the sign-and-digits step fail. */
  lemma SignedRejectsForeign(t: string, j: int)
    requires 0 <= j < |t| && !IsDigit(t[j]) && t[j] != '+' && t[j] != '-'
    ensures ParseSigned(t) == None
  {
    if t[0] == '-' || t[0] == '+' {
      assert t[1..][j - 1] == t[j];
    }
  }

  /**
   * Text holding a character that is neither white space, a digit nor a
   * sign never parses.
   */
  lemma ParseRejectsForeign(s: string, i: int)
    requires 0 <= i < |s|
    requires !IsWhite(s[i]) && !IsDigit(s[i]) && s[i] != '+' && s[i] != '-'
    ensures TryParseInt32(s) == None
  {
    var t := TrimWhite(s);
    var lo := TrimmedAt(s);
    assert t[i - lo] == s[i];
    SignedRejectsForeign(t, i - lo);
  }

  /** What the sign-and-digits step accepts is an optional sign and at least one digit. */
  lemma SignedShape(t: string) returns (sg: string, d: string)
    requires ParseSigned(t).Some?
    ensures t == sg + d && IsSign(sg) && |d| > 0 && AllDigits(d)
    ensures ParseSigned(t) == Some(SignedValue(sg, d))
  {
    if |t| > 0 && t[0] == '-' {
      sg, d := "-", t[1..];
    } else if |t| > 0 && t[0] == '+' {
      sg, d := "+", t[1..];
    } else {
      sg, d := "", t;
    }
  }

  /**
   * The converse of ParseForm: text that parses is white space, an optional
   * sign, at least one digit and white space, and its value is the signed
   * value of those digits.
   */
  lemma ParseShape(s: string) returns (w1: string, sg: string, d: string, w2: string)
    requires TryParseInt32(s).Some?
    ensures s == w1 + sg + d + w2
    ensures forall i :: 0 <= i < |w1| ==> IsWhite(w1[i])
    ensures forall i :: 0 <= i < |w2| ==> IsWhite(w2[i])
    ensures IsSign(sg) && |d| > 0 && AllDigits(d)
    ensures TryParseInt32(s) == Some(SignedValue(sg, d))
  {
    var t := TrimWhite(s);
    assert TryParseInt32(s) == ParseSigned(t);
    var lo := TrimmedAt(s);
    sg, d := SignedShape(t);
    w1, w2 := SplitAround(s, t, lo);
    Regroup(w1, sg, d, w2);
  }

  lemma Regroup(a: string, b: string, c: string, e: string)
    ensures a + b + c + e == a + (b + c) + e
  {
  }

  /** A slice of `s` with only white space around it cuts `s` into white space, the slice and white space. */
  lemma SplitAround(s: string, t: string, lo: nat) returns (w1: string, w2: string)
    requires lo + |t| <= |s| && t == s[lo..lo + |t|]
    requires forall i :: 0 <= i < lo ==> IsWhite(s[i])
    requires forall i :: lo + |t| <= i < |s| ==> IsWhite(s[i])
    ensures s == w1 + t + w2
    ensures forall i :: 0 <= i < |w1| ==> IsWhite(w1[i])
    ensures forall i :: 0 <= i < |w2| ==> IsWhite(w2[i])
  {
    w1, w2 := s[..lo], s[lo + |t|..];
    assert s == s[..lo] + s[lo..lo + |t|] + s[lo + |t|..];
    assert forall i :: 0 <= i < |w2| ==> w2[i] == s[lo + |t| + i];
  }
}

=== FILE: program.dfy ===
/**
 * The four statistics the program reports on the monarch list, and the
 * top-level flow that chooses between them and the "Missing data" exit.
 */
module Program {
  import opened Wrappers
  import opened Text
  import opened Linq
  import opened Kings

  // ------------------------------------------------- 1. number of monarchs

  datatype CountMessage = OnlyOneMonarch | TotalMonarchs(count: int)

  /** The wording of line 1: singular for exactly one monarch, the total otherwise. */
  function NumberOfMonarchsMessage(nbrMonarchs: int): (m: CountMessage)
    ensures m == OnlyOneMonarch <==> nbrMonarchs == 1
    ensures m.TotalMonarchs? ==> m.count == nbrMonarchs
  {
    if nbrMonarchs == 1 then OnlyOneMonarch else TotalMonarchs(nbrMonarchs)
  }

  // ------------------------------------------- 2. longest ruling monarch

  function RuledPeriodKey(currentYear: int): King -> int
  {
    k => RuledPeriod(k, currentYear)
  }

  /**
   * `OrderByDescending(x => x.RuledPeriod).FirstOrDefault()`: absent only for
   * an empty list, otherwise a listed monarch whose reign is at least as long
   * as every other, and the earliest listed among those.
   */
  function LongestRulingMonarch(kings: seq<King>, currentYear: int): (r: Option<King>)
    ensures r.None? <==> |kings| == 0
    ensures r.Some? ==>
      exists i :: IsFirstMax(kings, RuledPeriodKey(currentYear), i) && kings[i] == r.value
  {
    FirstOfOrderByDescending(kings, RuledPeriodKey(currentYear));
    FirstOrDefault(OrderByDescending(kings, RuledPeriodKey(currentYear)))
  }

  // --------------------------------------------- 3. longest ruling house

  function HouseOf(k: King): Option<string>
  {
    k.house
  }

  /** The houses kept by the `Where`: present, and not "Commonwealth" in any letter case. */
  predicate IsRoyalHouse(house: Option<string>)
  {
    house.Some? && !EqualsOrdinalIgnoreCase(house.value, "Commonwealth")
  }

  /**
   * The `Where` keeps a house exactly when it is present and is not the
   * twelve letters of "COMMONWEALTH" in upper case, lower case or a mix.
   */
  lemma RoyalHouseSpec(house: Option<string>)
    ensures IsRoyalHouse(house) <==>
      house.Some? && !(|house.value| == 12 && forall i :: 0 <= i < 12 ==>
        house.value[i] == "commonwealth"[i] || house.value[i] == "COMMONWEALTH"[i])
  {
    if house.Some? && |house.value| == 12 {
      var v := house.value;
      forall i | 0 <= i < 12
        ensures ToUpperAscii(v[i]) == ToUpperAscii("Commonwealth"[i]) <==> v[i] == "commonwealth"[i] || v[i] == "COMMONWEALTH"[i]
      {
      }
    }
  }

  predicate IsRoyalGroup(g: Group<King, Option<string>>)
  {
    IsRoyalHouse(g.key)
  }

  /** The anonymous record built for each house by the `Select`. */
  datatype HouseSummary = HouseSummary(
    house: string,
    rulingPeriod: int,
    firstMonarch: Option<King>,
    lastMonarch: Option<King>,
    monarchs: seq<King>)

  /** `Sum(d => d.RuledPeriod)`. */
  function TotalRuledPeriod(kings: seq<King>, currentYear: int): int
  {
    if |kings| == 0 then 0
    else TotalRuledPeriod(kings[..|kings| - 1], currentYear) + RuledPeriod(kings[|kings| - 1], currentYear)
  }

  function RuledToKey(currentYear: int): King -> int
  {
    k => RuledTo(k, currentYear)
  }

  /** The anonymous record built for one house group by the `Select`. */
  function Summarize(g: Group<King, Option<string>>, currentYear: int): HouseSummary
    requires g.key.Some?
  {
    HouseSummary(
      g.key.value,
      TotalRuledPeriod(g.members, currentYear),
      FirstOrDefault(OrderBy(g.members, RuledFrom)),
      FirstOrDefault(OrderByDescending(g.members, RuledToKey(currentYear))),
      g.members)
  }

  /**
   * A house summary carries the group's house and members and their summed
   * reign; for a non-empty group the first monarch is the earliest listed
   * member with the smallest start year and the last monarch the earliest
   * listed member with the largest end year, and both are absent only for
   * an empty group.
   */
  lemma SummarizeSpec(g: Group<King, Option<string>>, currentYear: int)
    requires g.key.Some?
    ensures var h := Summarize(g, currentYear);
      && h.house == g.key.value && h.monarchs == g.members
      && h.rulingPeriod == TotalRuledPeriod(g.members, currentYear)
      && (h.firstMonarch.None? <==> |g.members| == 0)
      && (h.lastMonarch.None? <==> |g.members| == 0)
      && (h.firstMonarch.Some? ==>
            exists i :: IsFirstMin(g.members, RuledFrom, i) && g.members[i] == h.firstMonarch.value)
      && (h.lastMonarch.Some? ==>
            exists i :: IsFirstMax(g.members, RuledToKey(currentYear), i) && g.members[i] == h.lastMonarch.value)
  {
    FirstOfOrderBy(g.members, RuledFrom);
    FirstOfOrderByDescending(g.members, RuledToKey(currentYear));
  }

  /** `GroupBy(x => x.House).Where(...).Select(...)`. */
  function Houses(kings: seq<King>, currentYear: int): seq<HouseSummary>
  {
    var royal := Filter(GroupBy(kings, HouseOf), IsRoyalGroup);
    seq(|royal|, i requires 0 <= i < |royal| => Summarize(royal[i], currentYear))
  }

  function RulingPeriodOf(h: HouseSummary): int
  {
    h.rulingPeriod
  }

  /** `OrderByDescending(x => x.RullingPerid).FirstOrDefault()` over the houses. */
  function LongestRulingHouse(kings: seq<King>, currentYear: int): (r: Option<HouseSummary>)
    ensures r.None? <==> |Houses(kings, currentYear)| == 0
  {
    FirstOrDefault(OrderByDescending(Houses(kings, currentYear), RulingPeriodOf))
  }

  /** The summed reign of a house: the reigns of the members of its group. */
  function HouseTotal(kings: seq<King>, house: string, currentYear: int): int
  {
    TotalRuledPeriod(Members(kings, HouseOf, Some(house)), currentYear)
  }

  /** The same sum written without groups: each record counts iff its house is exactly `house`. */
  function SumOverHouse(kings: seq<King>, house: string, currentYear: int): int
  {
    if |kings| == 0 then 0
    else
      var k := kings[|kings| - 1];
      SumOverHouse(kings[..|kings| - 1], house, currentYear) + (if k.house == Some(house) then RuledPeriod(k, currentYear) else 0)
  }

  /** A house's total is the sum of the reigns of exactly the records of that house (compared case-sensitively). */
  lemma {:induction false} HouseTotalIsSumOverHouse(kings: seq<King>, house: string, currentYear: int)
    ensures HouseTotal(kings, house, currentYear) == SumOverHouse(kings, house, currentYear)
  {
    if |kings| > 0 {
      var n := |kings| - 1;
      HouseTotalIsSumOverHouse(kings[..n], house, currentYear);
      var m := Members(kings[..n], HouseOf, Some(house));
      if kings[n].house == Some(house) {
        assert Members(kings, HouseOf, Some(house)) == m + [kings[n]];
        assert (m + [kings[n]])[..|m|] == m;
      } else {
        assert Members(kings, HouseOf, Some(house)) == m;
      }
    }
  }

  /**
   * The houses are the royal houses of the list, each once, in order of
   * first appearance, each summarising exactly the records of that house.
   */
  lemma HousesSpec(kings: seq<King>, currentYear: int)
    ensures var hs := Houses(kings, currentYear);
      && (forall j :: 0 <= j < |hs| ==>
            IsRoyalHouse(Some(hs[j].house))
            && FirstIndex(kings, HouseOf, Some(hs[j].house)) < |kings|
            && hs[j] == Summarize(Group(Some(hs[j].house), Members(kings, HouseOf, Some(hs[j].house))), currentYear))
      && (forall a, b :: 0 <= a < b < |hs| ==>
            FirstIndex(kings, HouseOf, Some(hs[a].house)) < FirstIndex(kings, HouseOf, Some(hs[b].house)))
  {
    var groups := GroupBy(kings, HouseOf);
    var ks := Keys(kings, HouseOf);
    var royal := Filter(groups, IsRoyalGroup);
    var hs := Houses(kings, currentYear);
    KeysSpec(kings, HouseOf);
    forall j | 0 <= j < |royal|
      ensures royal[j].key.Some? && IsRoyalHouse(royal[j].key)
      ensures FirstIndex(kings, HouseOf, royal[j].key) < |kings|
      ensures royal[j] == Group(royal[j].key, Members(kings, HouseOf, royal[j].key))
    {
      assert royal[j] in groups && IsRoyalGroup(royal[j]);
      var i :| 0 <= i < |groups| && groups[i] == royal[j];
      assert ks[i] in ks;
    }
    var rank := (g: Group<King, Option<string>>) => FirstIndex(kings, HouseOf, g.key);
    assert RankIncreasing(groups, rank);
    FilterKeepsOrder(groups, IsRoyalGroup, rank);
    forall a, b | 0 <= a < b < |hs|
      ensures FirstIndex(kings, HouseOf, Some(hs[a].house)) < FirstIndex(kings, HouseOf, Some(hs[b].house))
    {
      assert rank(royal[a]) < rank(royal[b]);
    }
  }

  /** Every royal house of the list has its summary among the houses. */
  lemma HouseIndex(kings: seq<King>, currentYear: int, p: int) returns (j: int)
    requires 0 <= p < |kings| && IsRoyalHouse(kings[p].house)
    ensures 0 <= j < |Houses(kings, currentYear)|
    ensures Some(Houses(kings, currentYear)[j].house) == kings[p].house
  {
    var groups := GroupBy(kings, HouseOf);
    var ks := Keys(kings, HouseOf);
    var royal := Filter(groups, IsRoyalGroup);
    KeysSpec(kings, HouseOf);
    assert HouseOf(kings[p]) in ks;
    var i :| 0 <= i < |ks| && ks[i] == kings[p].house;
    assert IsRoyalGroup(groups[i]);
    assert groups[i] in royal;
    j :| 0 <= j < |royal| && royal[j] == groups[i];
  }

  lemma HouseWinner(kings: seq<King>, currentYear: int) returns (i: int)
    requires |Houses(kings, currentYear)| > 0
    ensures IsFirstMax(Houses(kings, currentYear), RulingPeriodOf, i)
    ensures LongestRulingHouse(kings, currentYear) == Some(Houses(kings, currentYear)[i])
  {
    var hs := Houses(kings, currentYear);
    FirstOfOrderByDescending(hs, RulingPeriodOf);
    i :| IsFirstMax(hs, RulingPeriodOf, i) && LongestRulingHouse(kings, currentYear) == Some(hs[i]);
  }

  /** "No data available." is printed exactly when no record has a royal house. */
  lemma LongestRulingHouseAbsent(kings: seq<King>, currentYear: int)
    ensures LongestRulingHouse(kings, currentYear).None? <==>
      forall p :: 0 <= p < |kings| ==> !IsRoyalHouse(kings[p].house)
  {
    var hs := Houses(kings, currentYear);
    FirstOfOrderByDescending(hs, RulingPeriodOf);
    if |hs| > 0 {
      HousesSpec(kings, currentYear);
      var f := FirstIndex(kings, HouseOf, Some(hs[0].house));
      assert IsRoyalHouse(kings[f].house);
    } else {
      forall p | 0 <= p < |kings| ensures !IsRoyalHouse(kings[p].house) {
        if IsRoyalHouse(kings[p].house) {
          var j := HouseIndex(kings, currentYear, p);
        }
      }
    }
  }

  /**
   * `h` summarises a royal house of the list: it covers exactly that house's
   * records, its period is their summed reign, and its first and last
   * monarchs are members: the earliest listed with the smallest start year
   * and the earliest listed with the largest end year.
   */
  ghost predicate IsSummaryOf(kings: seq<King>, currentYear: int, h: HouseSummary)
  {
    && IsRoyalHouse(Some(h.house)) && FirstIndex(kings, HouseOf, Some(h.house)) < |kings|
    && h.monarchs == Members(kings, HouseOf, Some(h.house))
    && h.rulingPeriod == HouseTotal(kings, h.house, currentYear)
    && h.firstMonarch.Some? && h.lastMonarch.Some?
    && (exists i :: IsFirstMin(h.monarchs, RuledFrom, i) && h.monarchs[i] == h.firstMonarch.value)
    && (exists i :: IsFirstMax(h.monarchs, RuledToKey(currentYear), i) && h.monarchs[i] == h.lastMonarch.value)
  }

  /** Every house summary is the summary of a royal house of the list. */
  lemma HouseSummaryIsRoyal(kings: seq<King>, currentYear: int, j: int)
    requires 0 <= j < |Houses(kings, currentYear)|
    ensures IsSummaryOf(kings, currentYear, Houses(kings, currentYear)[j])
  {
    var h := Houses(kings, currentYear)[j];
    HousesSpec(kings, currentYear);
    SummarizeSpec(Group(Some(h.house), Members(kings, HouseOf, Some(h.house))), currentYear);
    MembersNonEmpty(kings, HouseOf, Some(h.house));
  }

  /** The chosen house is one of the house summaries, hence the summary of a royal house. */
  lemma LongestRulingHouseIsRoyal(kings: seq<King>, currentYear: int, h: HouseSummary)
    requires LongestRulingHouse(kings, currentYear) == Some(h)
    ensures IsSummaryOf(kings, currentYear, h)
  {
    var i := FirstOfOrderByDescendingAt(Houses(kings, currentYear), RulingPeriodOf, h);
    HouseSummaryIsRoyal(kings, currentYear, i);
  }

  /**
   * The chosen house has the longest summed reign of all royal houses, and
   * every royal house listed before its first record has a strictly shorter
   * one: ties go to the house that appears first.
   */
  lemma LongestRulingHouseIsMaximal(kings: seq<King>, currentYear: int, p: int)
    requires 0 <= p < |kings| && IsRoyalHouse(kings[p].house)
    ensures LongestRulingHouse(kings, currentYear).Some?
    ensures var h := LongestRulingHouse(kings, currentYear).value;
      && HouseTotal(kings, kings[p].house.value, currentYear) <= h.rulingPeriod
      && (p < FirstIndex(kings, HouseOf, Some(h.house)) ==>
            HouseTotal(kings, kings[p].house.value, currentYear) < h.rulingPeriod)
  {
    var hs := Houses(kings, currentYear);
    var j := HouseIndex(kings, currentYear, p);
    var i := HouseWinner(kings, currentYear);
    HousesSpec(kings, currentYear);
    assert RulingPeriodOf(hs[j]) <= RulingPeriodOf(hs[i]);
    if p < FirstIndex(kings, HouseOf, Some(hs[i].house)) {
      assert FirstIndex(kings, HouseOf, Some(hs[j].house)) <= p;
      assert j < i;
      assert RulingPeriodOf(hs[j]) < RulingPeriodOf(hs[i]);
    }
  }

  /**
   * When every royal-house record of the list belongs to one house, that
   * house is chosen, whatever the reigns; records of excluded houses never
   * compete.
   */
  lemma SoleRoyalHouseChosen(kings: seq<King>, currentYear: int, p: int)
    requires 0 <= p < |kings| && IsRoyalHouse(kings[p].house)
    requires forall q :: 0 <= q < |kings| && IsRoyalHouse(kings[q].house) ==> kings[q].house == kings[p].house
    ensures LongestRulingHouse(kings, currentYear).Some?
    ensures Some(LongestRulingHouse(kings, currentYear).value.house) == kings[p].house
  {
    LongestRulingHouseIsMaximal(kings, currentYear, p);
    var h := LongestRulingHouse(kings, currentYear).value;
    LongestRulingHouseIsRoyal(kings, currentYear, h);
    var f := FirstIndex(kings, HouseOf, Some(h.house));
    assert HouseOf(kings[f]) == Some(h.house);
  }

  // ------------------------------------------- 4. most common first name

  /** `x.Name?.Split(' ').FirstOrDefault() ?? "Unknown"`. */
  function FirstNameKey(k: King): (r: string)
    ensures ' ' !in r
  {
    match k.name
    case None => "Unknown"
    case Some(n) => Split(n, ' ')[0]
  }

  /**
   * The first-name key is "Unknown" for an absent name and otherwise the
   * text before the first space: the whole name when it has no space, ""
   * when it starts with one.
   */
  lemma FirstNameKeySpec(k: King)
    ensures k.name.None? ==> FirstNameKey(k) == "Unknown"
    ensures k.name.Some? ==>
      var n, f := k.name.value, FirstNameKey(k);
      |f| <= |n| && f == n[..|f|] && ' ' !in f && (|f| == |n| || n[|f|] == ' ')
  {
    if k.name.Some? {
      FirstPiece(k.name.value, ' ');
    }
  }

  /** A name made of a space-free word, a space and anything else has that word as its first name. */
  lemma FirstNameOfWords(k: King, first: string, rest: string)
    requires ' ' !in first && k.name == Some(first + " " + rest)
    ensures FirstNameKey(k) == first
  {
    var n, f := k.name.value, FirstNameKey(k);
    FirstNameKeySpec(k);
    assert n[|first|] == ' ' && n[..|first|] == first;
    assert |f| == |first|;
  }

  datatype NameCount = NameCount(name: string, count: int)

  /** `GroupBy(firstName).Select(x => new { Name = x.Key, Count = x.Count() })`. */
  function NameCounts(kings: seq<King>): seq<NameCount>
  {
    var gs := GroupBy(kings, FirstNameKey);
    seq(|gs|, i requires 0 <= i < |gs| => NameCount(gs[i].key, |gs[i].members|))
  }

  function CountOf(c: NameCount): int
  {
    c.count
  }

  /** `OrderByDescending(x => x.Count).FirstOrDefault()` over the name counts. */
  function MostCommonFirstName(kings: seq<King>): Option<NameCount>
  {
    FirstOrDefault(OrderByDescending(NameCounts(kings), CountOf))
  }

  function TotalCount(cs: seq<NameCount>): int
  {
    if |cs| == 0 then 0 else TotalCount(cs[..|cs| - 1]) + cs[|cs| - 1].count
  }

  lemma {:induction false} TotalCountOfKeys(kings: seq<King>, ks: seq<string>, cs: seq<NameCount>)
    requires |cs| == |ks|
    requires forall i :: 0 <= i < |cs| ==> cs[i].count == |Members(kings, FirstNameKey, ks[i])|
    ensures TotalCount(cs) == GroupedCount(kings, FirstNameKey, ks)
  {
    if |cs| > 0 {
      TotalCountOfKeys(kings, ks[..|ks| - 1], cs[..|cs| - 1]);
    }
  }

  /** Every record is counted under exactly one first name: the counts add up to the list length. */
  lemma NameCountsSum(kings: seq<King>)
    ensures TotalCount(NameCounts(kings)) == |kings|
  {
    TotalCountOfKeys(kings, Keys(kings, FirstNameKey), NameCounts(kings));
    GroupSizesSum(kings, FirstNameKey);
  }

  /** The name counts pair each first name, in order of first appearance, with the size of its group. */
  lemma NameCountsAreGroups(kings: seq<King>)
    ensures var cs, ks := NameCounts(kings), Keys(kings, FirstNameKey);
      |cs| == |ks| && forall i :: 0 <= i < |cs| ==> cs[i] == NameCount(ks[i], |Members(kings, FirstNameKey, ks[i])|)
  {
  }

  /** The number of records whose first name is `name`, counted without groups. */
  function Carrying(kings: seq<King>, name: string): nat
  {
    if |kings| == 0 then 0
    else Carrying(kings[..|kings| - 1], name) + (if FirstNameKey(kings[|kings| - 1]) == name then 1 else 0)
  }

  /** A first-name group holds exactly the records carrying that name. */
  lemma {:induction false} GroupSizeIsCarrying(kings: seq<King>, name: string)
    ensures |Members(kings, FirstNameKey, name)| == Carrying(kings, name)
  {
    if |kings| > 0 {
      GroupSizeIsCarrying(kings[..|kings| - 1], name);
    }
  }

  /**
   * The name counts list every first name of the list once, in order of
   * first appearance, each with the number of records carrying it.
   */
  lemma NameCountsSpec(kings: seq<King>)
    ensures forall p :: 0 <= p < |kings| ==>
      exists i :: 0 <= i < |NameCounts(kings)| && NameCounts(kings)[i].name == FirstNameKey(kings[p])
    ensures forall i :: 0 <= i < |NameCounts(kings)| ==>
      && FirstIndex(kings, FirstNameKey, NameCounts(kings)[i].name) < |kings|
      && NameCounts(kings)[i].count == Carrying(kings, NameCounts(kings)[i].name)
    ensures forall i, j :: 0 <= i < j < |NameCounts(kings)| ==>
      FirstIndex(kings, FirstNameKey, NameCounts(kings)[i].name) < FirstIndex(kings, FirstNameKey, NameCounts(kings)[j].name)
  {
    var cs, ks := NameCounts(kings), Keys(kings, FirstNameKey);
    NameCountsAreGroups(kings);
    KeysSpec(kings, FirstNameKey);
    forall p | 0 <= p < |kings|
      ensures exists i :: 0 <= i < |cs| && cs[i].name == FirstNameKey(kings[p])
    {
      var i :| 0 <= i < |ks| && ks[i] == FirstNameKey(kings[p]);
      assert cs[i].name == ks[i];
    }
    forall i | 0 <= i < |cs|
      ensures FirstIndex(kings, FirstNameKey, cs[i].name) < |kings| && cs[i].count == Carrying(kings, cs[i].name)
    {
      assert ks[i] in ks;
      GroupSizeIsCarrying(kings, ks[i]);
    }
  }

  lemma NameWinner(kings: seq<King>) returns (i: int)
    requires |kings| > 0
    ensures IsFirstMax(NameCounts(kings), CountOf, i)
    ensures MostCommonFirstName(kings) == Some(NameCounts(kings)[i])
  {
    var cs := NameCounts(kings);
    KeysSpec(kings, FirstNameKey);
    NameCountsAreGroups(kings);
    assert FirstNameKey(kings[0]) in Keys(kings, FirstNameKey);
    FirstOfOrderByDescending(cs, CountOf);
    i :| IsFirstMax(cs, CountOf, i) && MostCommonFirstName(kings) == Some(cs[i]);
  }

  /**
   * The most common first name is absent exactly for an empty list; otherwise
   * it is the first name of a listed record and is counted once per record
   * that carries it.
   */
  lemma MostCommonFirstNameIsCounted(kings: seq<King>)
    ensures MostCommonFirstName(kings).None? <==> |kings| == 0
    ensures MostCommonFirstName(kings).Some? ==>
      var c := MostCommonFirstName(kings).value;
      FirstIndex(kings, FirstNameKey, c.name) < |kings| && c.count == |Members(kings, FirstNameKey, c.name)|
      && c.count == Carrying(kings, c.name)
  {
    FirstOfOrderByDescending(NameCounts(kings), CountOf);
    KeysSpec(kings, FirstNameKey);
    NameCountsAreGroups(kings);
    if |kings| > 0 {
      var i := NameWinner(kings);
      assert NameCounts(kings)[i].name in Keys(kings, FirstNameKey);
      GroupSizeIsCarrying(kings, NameCounts(kings)[i].name);
    } else {
      assert Keys(kings, FirstNameKey) == [];
    }
  }

  /**
   * No first name is more common than the chosen one, and every first name
   * listed before the chosen one's first record is strictly less common:
   * ties go to the name that appears first.
   */
  lemma MostCommonFirstNameIsMaximal(kings: seq<King>, p: int)
    requires 0 <= p < |kings|
    ensures MostCommonFirstName(kings).Some?
    ensures var c := MostCommonFirstName(kings).value;
      && |Members(kings, FirstNameKey, FirstNameKey(kings[p]))| <= c.count
      && (p < FirstIndex(kings, FirstNameKey, c.name) ==>
            |Members(kings, FirstNameKey, FirstNameKey(kings[p]))| < c.count)
  {
    var cs := NameCounts(kings);
    var ks := Keys(kings, FirstNameKey);
    KeysSpec(kings, FirstNameKey);
    NameCountsAreGroups(kings);
    var i := NameWinner(kings);
    assert FirstNameKey(kings[p]) in ks;
    var j :| 0 <= j < |ks| && ks[j] == FirstNameKey(kings[p]);
    assert CountOf(cs[j]) <= CountOf(cs[i]);
    if p < FirstIndex(kings, FirstNameKey, cs[i].name) {
      assert FirstIndex(kings, FirstNameKey, ks[j]) <= p;
      assert j < i;
      assert CountOf(cs[j]) < CountOf(cs[i]);
    }
  }

  /** A first name carried by more records than any other is the one chosen, with its count. */
  lemma StrictlyMostCommonChosen(kings: seq<King>, p: int)
    requires 0 <= p < |kings|
    requires forall q :: 0 <= q < |kings| && FirstNameKey(kings[q]) != FirstNameKey(kings[p]) ==>
      |Members(kings, FirstNameKey, FirstNameKey(kings[q]))| < |Members(kings, FirstNameKey, FirstNameKey(kings[p]))|
    ensures MostCommonFirstName(kings) ==
      Some(NameCount(FirstNameKey(kings[p]), |Members(kings, FirstNameKey, FirstNameKey(kings[p]))|))
  {
    MostCommonFirstNameIsCounted(kings);
    MostCommonFirstNameIsMaximal(kings, p);
    var r := MostCommonFirstName(kings).value;
    var f := FirstIndex(kings, FirstNameKey, r.name);
    assert FirstNameKey(kings[f]) == r.name;
  }

  // ------------------------------------------------------------ Main

  /** What the program reports: "Missing data" alone, or the four statistics. */
  datatype Report =
    | MissingData
    | Statistics(
        count: CountMessage,
        longestMonarch: Option<King>,
        longestHouse: Option<HouseSummary>,
        mostCommonName: Option<NameCount>)

  /**
   * `Main` on the fetched list (absent when the body did not deserialise).
   * A missing or empty list reports only "Missing data"; otherwise the
   * statistics are computed, and the longest reign and the most common name
   * are then always present.
   */
  function Run(kingList: Option<seq<King>>, currentYear: int): (r: Report)
    ensures r.MissingData? <==> kingList.None? || |kingList.value| == 0
    ensures r.Statistics? ==>
      && r.count == (if |kingList.value| == 1 then OnlyOneMonarch else TotalMonarchs(|kingList.value|))
      && r.longestMonarch.Some?
      && r.longestMonarch == LongestRulingMonarch(kingList.value, currentYear)
      && r.longestHouse == LongestRulingHouse(kingList.value, currentYear)
      && r.mostCommonName.Some?
      && r.mostCommonName == MostCommonFirstName(kingList.value)
  {
    if kingList.None? || |kingList.value| == 0 then MissingData
    else
      var kings := kingList.value;
      MostCommonFirstNameIsCounted(kings);
      Statistics(
        NumberOfMonarchsMessage(|kings|),
        LongestRulingMonarch(kings, currentYear),
        LongestRulingHouse(kings, currentYear),
        MostCommonFirstName(kings))
  }
}

=== FILE: scenarios.dfy ===
/**
 * Small worked inputs for the four statistics, derived from the general
 * lemmas about them.
 */
module Scenarios {
  import opened Wrappers
  import opened Text
  import opened Numbers
  import opened Linq
  import opened Kings
  import opened Program

  /** A reign written "1900-1950" lasts 50 years. */
  lemma FiftyYears(k: King, currentYear: int)
    requires k.period == Some("1900-1950")
    ensures RuledPeriod(k, currentYear) == 50
  {
    assert ShowNat(1900) + "-" + ShowNat(1950) == "1900-1950";
    ClosedPeriod(k, 1900, 1950, currentYear);
  }

  /** A reign written "1800-1900" lasts 100 years. */
  lemma HundredYears(k: King, currentYear: int)
    requires k.period == Some("1800-1900")
    ensures RuledPeriod(k, currentYear) == 100
  {
    assert ShowNat(1800) + "-" + ShowNat(1900) == "1800-1900";
    ClosedPeriod(k, 1800, 1900, currentYear);
  }

  /** A reign written "1950-" ends in the current year: the monarch is still reigning. */
  lemma StillReigningSince1950(k: King, currentYear: int)
    requires k.period == Some("1950-")
    ensures RuledFrom(k) == 1950 && RuledTo(k, currentYear) == currentYear
    ensures StillRuling(k, currentYear)
  {
    assert ShowNat(1950) + "-" == "1950-";
    OpenPeriod(k, 1950, currentYear);
  }

  /** Of two elements, the first of the descending sort is the second exactly when its key is strictly larger. */
  lemma FirstOfTwo<T>(x: T, y: T, key: T -> int)
    ensures FirstOrDefault(OrderByDescending([x, y], key)) == if key(x) < key(y) then Some(y) else Some(x)
  {
    FirstOfOrderByDescending([x, y], key);
    assert [x, y][0] == x && [x, y][1] == y;
  }

  /**
   * Of a reign "1900-1950" (50 years) listed first and a reign "1800-1900"
   * (100 years) listed second, the longest reign is the second.
   */
  lemma LongestOfTwoReigns(a: King, b: King, currentYear: int)
    requires a.period == Some("1900-1950") && b.period == Some("1800-1900")
    ensures LongestRulingMonarch([a, b], currentYear) == Some(b)
  {
    FiftyYears(a, currentYear);
    HundredYears(b, currentYear);
    FirstOfTwo(a, b, RuledPeriodKey(currentYear));
  }

  /**
   * With one record of house "A" and one of "COMMONWEALTH" the chosen house
   * is "A", whatever the reigns: the Commonwealth is never a candidate.
   */
  lemma CommonwealthNeverChosen(a: King, c: King, currentYear: int)
    requires a.house == Some("A") && c.house == Some("COMMONWEALTH")
    ensures LongestRulingHouse([a, c], currentYear).Some?
    ensures LongestRulingHouse([a, c], currentYear).value.house == "A"
  {
    var kings := [a, c];
    RoyalHouseSpec(a.house);
    RoyalHouseSpec(c.house);
    assert kings[0] == a && kings[1] == c;
    SoleRoyalHouseChosen(kings, currentYear, 0);
  }

  /** The first-name groups of three records, the first two sharing a first name. */
  lemma GroupsOfThree(a: King, b: King, c: King)
    requires FirstNameKey(a) == FirstNameKey(b) != FirstNameKey(c)
    ensures Members([a, b, c], FirstNameKey, FirstNameKey(a)) == [a, b]
    ensures Members([a, b, c], FirstNameKey, FirstNameKey(c)) == [c]
  {
    var j, n := FirstNameKey(a), FirstNameKey(c);
    assert [a, b, c][..2] == [a, b] && [a, b][..1] == [a] && [a][..0] == [];
    assert Members([a], FirstNameKey, j) == [a];
    assert Members([a, b], FirstNameKey, j) == [a, b];
    assert Members([a], FirstNameKey, n) == [];
    assert Members([a, b], FirstNameKey, n) == [];
  }

  /** Of three records whose first two share a first name that the third lacks, that name is chosen, twice. */
  lemma TwoOfThree(a: King, b: King, c: King)
    requires FirstNameKey(a) == FirstNameKey(b) != FirstNameKey(c)
    ensures MostCommonFirstName([a, b, c]) == Some(NameCount(FirstNameKey(a), 2))
  {
    var kings := [a, b, c];
    GroupsOfThree(a, b, c);
    assert kings[0] == a && kings[1] == b && kings[2] == c;
    StrictlyMostCommonChosen(kings, 0);
  }

  /**
   * Of "John Smith", "John Doe" and "Jane Doe", the most common first name
   * is "John", carried by two records.
   */
  lemma JohnIsMostCommon(a: King, b: King, c: King)
    requires a.name == Some("John Smith") && b.name == Some("John Doe") && c.name == Some("Jane Doe")
    ensures MostCommonFirstName([a, b, c]) == Some(NameCount("John", 2))
  {
    var kings := [a, b, c];
    assert "John Smith" == "John" + " " + "Smith";
    assert "John Doe" == "John" + " " + "Doe";
    assert "Jane Doe" == "Jane" + " " + "Doe";
    FirstNameOfWords(a, "John", "Smith");
    FirstNameOfWords(b, "John", "Doe");
    FirstNameOfWords(c, "Jane", "Doe");
    TwoOfThree(a, b, c);
  }
}

=== FILE: text.dfy ===
/**
 * The pieces of .NET string handling that the monarch statistics rely on:
 * `String.Split(char)`, ordinal case-insensitive equality and the white-space
 * class accepted around numbers by `int.TryParse`.
 */
module Text {

  /** `s.Split(sep)`: the pieces between separators, empty pieces kept. */
  function Split(s: string, sep: char): (parts: seq<string>)
    ensures |parts| >= 1
    ensures forall i :: 0 <= i < |parts| ==> sep !in parts[i]
  {
    if |s| == 0 then [""]
    else
      var rest := Split(s[1..], sep);
      if s[0] == sep then [""] + rest
      else [[s[0]] + rest[0]] + rest[1..]
  }

  /** `String.Join(sep, parts)`: the partner of Split. */
  function Join(parts: seq<string>, sep: char): string
    requires |parts| >= 1
  {
    if |parts| == 1 then parts[0] else parts[0] + [sep] + Join(parts[1..], sep)
  }

  /** Splitting loses nothing: joining the pieces back gives the input. */
  lemma {:induction false} JoinSplit(s: string, sep: char)
    ensures Join(Split(s, sep), sep) == s
  {
    if |s| > 0 {
      var rest := Split(s[1..], sep);
      JoinSplit(s[1..], sep);
      if s[0] == sep {
        assert Split(s, sep)[1..] == rest;
      } else {
        var parts := Split(s, sep);
        if |rest| == 1 {
          assert parts == [[s[0]] + rest[0]];
        } else {
          assert parts[1..] == rest[1..];
          assert Join(rest, sep) == rest[0] + [sep] + Join(rest[1..], sep);
        }
      }
    }
  }

  /** A separator-free prefix glues onto the first piece of what follows. */
  lemma {:induction false} SplitPrepend(x: string, y: string, sep: char)
    requires sep !in x
    ensures Split(x + y, sep) == [x + Split(y, sep)[0]] + Split(y, sep)[1..]
  {
    if |x| > 0 {
      SplitPrepend(x[1..], y, sep);
      assert (x + y)[1..] == x[1..] + y;
      assert [x[0]] + (x[1..] + Split(y, sep)[0]) == x + Split(y, sep)[0];
    } else {
      assert x + y == y;
      assert x + Split(y, sep)[0] == Split(y, sep)[0];
      assert Split(y, sep) == [Split(y, sep)[0]] + Split(y, sep)[1..];
    }
  }

  /** A string without the separator is a single piece. */
  lemma SplitWithoutSeparator(s: string, sep: char)
    requires sep !in s
    ensures Split(s, sep) == [s]
  {
    SplitPrepend(s, "", sep);
    assert s + "" == s;
  }

  /** The other round trip: separator-free pieces are recovered by Split after Join. */
  lemma {:induction false} SplitJoin(parts: seq<string>, sep: char)
    requires |parts| >= 1
    requires forall i :: 0 <= i < |parts| ==> sep !in parts[i]
    ensures Split(Join(parts, sep), sep) == parts
  {
    if |parts| == 1 {
      SplitWithoutSeparator(parts[0], sep);
    } else {
      var tail := Join(parts[1..], sep);
      SplitJoin(parts[1..], sep);
      SplitPrepend(parts[0], [sep] + tail, sep);
      assert parts[0] + [sep] + tail == parts[0] + ([sep] + tail);
      assert ([sep] + tail)[1..] == tail;
      assert Split([sep] + tail, sep) == [""] + parts[1..];
      assert parts[0] + "" == parts[0];
      assert Join(parts, sep) == parts[0] + ([sep] + tail);
      assert parts == [parts[0]] + parts[1..];
    }
  }

  /**
   * The first piece is the text before the first separator: a prefix of `s`
   * holding no separator, followed in `s` by a separator or by nothing.
   */
  lemma FirstPiece(s: string, sep: char)
    ensures var p := Split(s, sep)[0];
      |p| <= |s| && p == s[..|p|] && sep !in p && (|p| == |s| || s[|p|] == sep)
  {
    var parts := Split(s, sep);
    JoinSplit(s, sep);
    if |parts| > 1 {
      assert s == parts[0] + ([sep] + Join(parts[1..], sep));
    }
  }

  /**
   * The last piece is the text after the last separator: a suffix of `s`
   * holding no separator, preceded in `s` by a separator or by nothing.
   */
  lemma {:induction false} LastPiece(s: string, sep: char)
    ensures var p := Split(s, sep)[|Split(s, sep)| - 1];
      |p| <= |s| && p == s[|s| - |p|..] && sep !in p
      && (|p| == |s| || s[|s| - |p| - 1] == sep)
  {
    var parts := Split(s, sep);
    JoinSplit(s, sep);
    LastOfJoin(parts, sep);
  }

  lemma {:induction false} LastOfJoin(parts: seq<string>, sep: char)
    requires |parts| >= 1
    ensures var j := Join(parts, sep); var p := parts[|parts| - 1];
      |p| <= |j| && p == j[|j| - |p|..] && (|p| == |j| || j[|j| - |p| - 1] == sep)
  {
    if |parts| > 1 {
      LastOfJoin(parts[1..], sep);
      var j := Join(parts, sep);
      var t := Join(parts[1..], sep);
      assert j == (parts[0] + [sep]) + t;
      var p := parts[|parts| - 1];
      assert p == parts[1..][|parts[1..]| - 1];
      assert j[|j| - |t|..] == t;
      if |p| == |t| {
        assert j[|j| - |p| - 1] == sep;
      }
    }
  }

  /** `Char.ToUpperInvariant` restricted to ASCII letters. */
  function ToUpperAscii(c: char): char
  {
    if 'a' <= c <= 'z' then (c as int - 32) as char else c
  }

  /** `a.Equals(b, StringComparison.OrdinalIgnoreCase)`. */
  predicate EqualsOrdinalIgnoreCase(a: string, b: string)
  {
    |a| == |b| && forall i :: 0 <= i < |a| ==> ToUpperAscii(a[i]) == ToUpperAscii(b[i])
  }

  /** The characters the .NET number parser skips before and after a number. */
  predicate IsWhite(c: char)
  {
    c == ' ' || '\t' <= c <= '\r'
  }

  /** Skips the white space at the front: the text from its first non-white character on. */
  function TrimStart(s: string): (r: string)
    ensures |r| <= |s| && r == s[|s| - |r|..]
    ensures forall i :: 0 <= i < |s| - |r| ==> IsWhite(s[i])
    ensures |r| > 0 ==> !IsWhite(r[0])
  {
    if |s| > 0 && IsWhite(s[0]) then TrimStart(s[1..]) else s
  }

  /** Skips the white space at the back: the text up to its last non-white character. */
  function TrimEnd(s: string): (r: string)
    ensures |r| <= |s| && r == s[..|r|]
    ensures forall i :: |r| <= i < |s| ==> IsWhite(s[i])
    ensures |r| > 0 ==> !IsWhite(r[|r| - 1])
  {
    if |s| > 0 && IsWhite(s[|s| - 1]) then TrimEnd(s[..|s| - 1]) else s
  }

  /** The text left once the white space around it is skipped. */
  function TrimWhite(s: string): (r: string)
    ensures |r| > 0 ==> !IsWhite(r[0]) && !IsWhite(r[|r| - 1])
  {
    TrimEnd(TrimStart(s))
  }

  /**
   * Trimming removes white space only, and only at the ends: the result is
   * the slice of `s` that starts after its leading white space, and every
   * character of `s` outside that slice is white.
   */
  lemma TrimWhiteSpec(s: string)
    ensures |s| - |TrimStart(s)| + |TrimWhite(s)| <= |s|
    ensures TrimWhite(s) == s[|s| - |TrimStart(s)|..|s| - |TrimStart(s)| + |TrimWhite(s)|]
    ensures forall i :: 0 <= i < |s| - |TrimStart(s)| ==> IsWhite(s[i])
    ensures forall i :: |s| - |TrimStart(s)| + |TrimWhite(s)| <= i < |s| ==> IsWhite(s[i])
  {
    var t := TrimStart(s);
    var r := TrimEnd(t);
    SliceOfSuffix(s, t, r);
  }

  lemma SliceOfSuffix(s: string, t: string, r: string)
    requires |t| <= |s| && t == s[|s| - |t|..]
    requires |r| <= |t| && r == t[..|r|]
    requires forall j :: |r| <= j < |t| ==> IsWhite(t[j])
    ensures r == s[|s| - |t|..|s| - |t| + |r|]
    ensures forall i :: |s| - |t| + |r| <= i < |s| ==> IsWhite(s[i])
  {
    var lo := |s| - |t|;
    forall i | lo + |r| <= i < |s| ensures IsWhite(s[i]) {
      assert s[i] == t[i - lo];
    }
  }

  /** Trimming only removes characters: every character left was in the text. */
  lemma TrimWhiteKeeps(s: string)
    ensures forall c :: c in TrimWhite(s) ==> c in s
  {
    var t := TrimStart(s);
    var r := TrimWhite(s);
    assert forall i :: 0 <= i < |r| ==> r[i] == s[|s| - |t| + i];
  }

  /** Text that neither starts nor ends with white space is left as it is. */
  lemma TrimWhiteUnchanged(s: string)
    requires |s| > 0 && !IsWhite(s[0]) && !IsWhite(s[|s| - 1])
    ensures TrimWhite(s) == s
  {
    assert TrimStart(s) == s;
    assert TrimEnd(s) == s;
  }

  /** White space in front of text that starts with a non-white character is skipped entirely. */
  lemma {:induction false} TrimStartWhite(w: string, x: string)
    requires forall i :: 0 <= i < |w| ==> IsWhite(w[i])
    requires |x| > 0 && !IsWhite(x[0])
    ensures TrimStart(w + x) == x
  {
    if |w| > 0 {
      assert (w + x)[0] == w[0];
      assert (w + x)[1..] == w[1..] + x;
      TrimStartWhite(w[1..], x);
    } else {
      assert w + x == x;
    }
  }

  /** White space after text that ends with a non-white character is skipped entirely. */
  lemma {:induction false} TrimEndWhite(x: string, w: string)
    requires |x| > 0 && !IsWhite(x[|x| - 1])
    requires forall i :: 0 <= i < |w| ==> IsWhite(w[i])
    ensures TrimEnd(x + w) == x
  {
    if |w| > 0 {
      var n := |w| - 1;
      assert (x + w)[|x + w| - 1] == w[n];
      assert (x + w)[..|x + w| - 1] == x + w[..n];
      TrimEndWhite(x, w[..n]);
    } else {
      assert x + w == x;
    }
  }

  /** Surrounding white space is skipped: `w1 + x + w2` trims to `x`. */
  lemma TrimPadded(w1: string, x: string, w2: string)
    requires forall i :: 0 <= i < |w1| ==> IsWhite(w1[i])
    requires forall i :: 0 <= i < |w2| ==> IsWhite(w2[i])
    requires |x| > 0 && !IsWhite(x[0]) && !IsWhite(x[|x| - 1])
    ensures TrimWhite(w1 + x + w2) == x
  {
    assert (x + w2)[0] == x[0];
    assert w1 + x + w2 == w1 + (x + w2);
    TrimStartWhite(w1, x + w2);
    TrimEndWhite(x, w2);
  }
}

=== FILE: wrappers.dfy ===
/** Optional values: the model's stand-in for C# `null` on reference types. */
module Wrappers {
  datatype Option<+T> = None | Some(value: T)
}
